=== FILE: README.md ===
# Storefront order fulfilment in Dafny

This project models the order-fulfilment core of a small storefront. The backend is a Laravel application. The frontend is a React single-page app. Every request is modelled as one atomic step: a pure function from the state it reads to the state it writes, plus a typed result.

What is modelled:

- **Order lifecycle** (`Order::allowedStatuses`, `transitionFlow`, `canTransition`). Statuses travel as raw strings. The predicate trims and lower-cases both sides before comparing them.
- **Admin order endpoints** (`Admin\OrderController`):
  - `update`, which applies the lifecycle and restocks on cancel;
  - `destroy`, which cancels without a check or a restock;
  - `setTracking`;
  - the page-size clamp of `index`.
- **Checkout** (`CheckoutController::store`). It is a state transformer from a catalogue (product id ↦ title, price, stock, active) and a request to either a typed rejection or a new order plus a decremented catalogue. It covers validation, per-line checks, item snapshots and pricing, the inline shipping-fee rule, the `ORD-<year>-<id>` code and the stock decrement. `showMine`'s ownership check is modelled too.
- **Shipping calculator** (`ShippingService::calculate`), and how it relates to the controller's inline fee rule.
- **Client cart** (`CartContext`): `add`, `remove`, `inc`, `dec`, `updateQty`, `clear` and `total`.
- **Client stock gating**:
  - the checkout page's `stockProblems`, `canPlaceOrder`, previews and request payload;
  - the cart drawer's `hasStockProblem`, `canCheckout`, `canInc`, `canDec` and `qtyHint`;
  - the `StockBadge` classification;
  - the shop list's filters and sorts, and its add-to-cart guard.
- **Admin orders page**: the `FLOW` table, `openStatus`, the submit guard, `allowedStatusOptions`, the row patches, and the tracking payload.
- **Wishlist**: the server's set operations, and the client's optimistic toggle with reconcile and rollback.
- **Role assignment** (`Admin\UserController::setRole`) and the super-admin invariant it protects.

Modules follow the source files:

| module | source |
|---|---|
| `OrderStatus` | `Order` model |
| `AdminOrders` | admin `OrderController` |
| `Store` | catalogue, lines, order records, stock moves |
| `Checkout` | `CheckoutController` |
| `MergedCheckout` | checkout with lines merged first (the corrected checkout, see Findings) |
| `Shipping` | `ShippingService` |
| `Fulfilment` | checkout and admin updates composed |
| `Cart` | `CartContext` |
| `CheckoutPage` | `Checkout.jsx` |
| `CartDrawer` | `CartDrawer.jsx` |
| `StockBadge` | `StockBadge.jsx` |
| `Shop` | `Shop.jsx` |
| `AdminOrdersPage` | admin `Orders.jsx` |
| `Wishlist` | `WishlistController` |
| `WishlistClient` | `context/WishlistContext.jsx` |
| `Roles` | admin `UserController` |

`Text` and `Wrappers` are shared helpers:

- `trim` in two flavours: PHP's, with its six-character white-space set (NUL included), and JavaScript's, with the ECMAScript WhiteSpace and LineTerminator characters (no-break space and the byte order mark included, NUL not). The server's rules use the first, the pages the second;
- ASCII lower-casing;
- decimal digits and `str_pad`;
- substring search;
- `Option` and `Result`.

`store` does not merge lines by product, never reads `client_request_id`, prices with its inline fee rule instead of `ShippingService`, and reports only `available` in the stock error. `Checkout.PlaceOrder` follows it: every line is checked on its own against the stock read before the loop, and the inline fee rule is used. A checkout that merges lines by product first is modelled separately, as `MergedCheckout.PlaceMergedOrder`.

## Model

| member | source | states |
|---|---|---|
| OrderStatus.Parse | backend/app/Models/Order.php:17-26 | A status string is accepted exactly when it is one of the five names, compared case-sensitively as `Rule::in` does; the result names that status. |
| OrderStatus.AllowedNamesExact | backend/app/Models/Order.php:17-26 | Membership in `allowedStatuses()` is the same as parsing to a status. |
| OrderStatus.SelfTransition | backend/app/Models/Order.php:48 | `canTransition(s, s)` holds for every string, known status or not. |
| OrderStatus.TransitionTable | backend/app/Models/Order.php:32-54 | Between two different known statuses the allowed moves are exactly pending→confirmed/cancelled, confirmed→shipped/cancelled and shipped→delivered/cancelled. |
| OrderStatus.CanTransitionKnown | backend/app/Models/Order.php:43-54 | For two known statuses, `canTransition` holds exactly when they are equal or the target is among the successors the flow table lists. |
| OrderStatus.TerminalStates | backend/app/Models/Order.php:38-39 | From delivered or cancelled, only the status itself is allowed, after normalisation. |
| OrderStatus.UnknownFromOnlySelf | backend/app/Models/Order.php:51-53 | A from-status outside the table allows only the self-transition. |
| OrderStatus.PendingNeverReentered | backend/app/Models/Order.php:35-39 | No move from a different status ever targets pending. |
| OrderStatus.NormalisationIrrelevant | backend/app/Models/Order.php:45-46 | `canTransition` gives the same answer on the trimmed, lower-cased arguments as on the raw ones. |
| OrderStatus.MixedCaseExample | backend/app/Models/Order.php:45-46 | `canTransition(" Pending", "CONFIRMED")` holds. |
| OrderStatus.FlowTargetsAllowed | backend/app/Models/Order.php:17-41 | Every successor listed in `transitionFlow` is one of `allowedStatuses`. |
| OrderStatus.NameIsNormal | backend/app/Models/Order.php:11-15 | Each status constant is already trimmed and lower-case. |
| AdminOrders.UpdateStatus | backend/app/Http/Controllers/Admin/OrderController.php:71-107 | The outcomes are as follows. A target outside the five names is rejected. A refused move returns `allowed_next = transitionFlow[lower(from)] ?? []` and changes nothing. Success sets the status. The catalogue is restocked with the items exactly when moving into cancelled from another status; otherwise it is untouched. |
| AdminOrders.ReCancelIsNoOp | backend/app/Http/Controllers/Admin/OrderController.php:89 | Cancelling an already cancelled order succeeds and leaves order and stock as they were. |
| AdminOrders.CancelRestocks | backend/app/Http/Controllers/Admin/OrderController.php:89-98 | An allowed cancel adds each product's total item qty back to its stock. |
| AdminOrders.CancelAppliesRestock | backend/app/Http/Controllers/Admin/OrderController.php:89-102 | An allowed cancel of a live order is exactly a status write plus one restock of its items. |
| AdminOrders.CancellableStatuses | backend/app/Models/Order.php:35-37 | Pending, confirmed and shipped orders can be cancelled. |
| AdminOrders.Cancellable | backend/app/Models/Order.php:32-41 | Every status other than delivered and cancelled lists `cancelled` as an allowed move. |
| AdminOrders.CancelledIsTerminal | backend/app/Http/Controllers/Admin/OrderController.php:82-87 | A cancelled order accepts no other status. |
| AdminOrders.PendingToShippedRefused | backend/app/Http/Controllers/Admin/OrderController.php:82-87 | pending→shipped is refused with `allowed_next = [confirmed, cancelled]`. |
| AdminOrders.Destroy | backend/app/Http/Controllers/Admin/OrderController.php:112-116 | The status becomes cancelled from any state, and nothing else changes. |
| AdminOrders.SetTracking | backend/app/Http/Controllers/Admin/OrderController.php:16-23 | A null code, or one of at most 100 characters, is stored as given; only `tracking_code` changes. A longer code is refused. |
| AdminOrders.PerPage | backend/app/Http/Controllers/Admin/OrderController.php:57-58 | The page size is within 1..50. It defaults to 10, keeps an in-range request, and clamps the rest. |
| Store.Restock | backend/app/Http/Controllers/Admin/OrderController.php:93-97 | Every product's stock rises by the summed qty of its items; the keys are unchanged. |
| Store.Decrement | backend/app/Http/Controllers/CheckoutController.php:109-112 | Every product's stock falls by the summed qty of its lines; the keys are unchanged. |
| Store.RestockUndoesTake | backend/app/Http/Controllers/Admin/OrderController.php:93-97 | Restocking the items after taking their quantities gives back the original catalogue. |
| Checkout.PlaceOrder | backend/app/Http/Controllers/CheckoutController.php:14-118 | Behaviour: accepted iff the request validates and every line passes its check; an invalid request is rejected first, and a valid one that fails returns the first failing line's error. On success (`OrderFromRequest`): the customer fields are stored as sent except the city, which is trimmed; status pending, the code is `OrderCode(year, id)`, item `subtotal = unit_price * qty`, order subtotal is the sum of the items, `total = subtotal + fee`, the items mirror the lines in order, and each product's stock falls by its summed line qty. |
| Checkout.FirstLineError | backend/app/Http/Controllers/CheckoutController.php:38-56 | There is no error iff every line passes. Otherwise the error is the first failing line's, checking not found, then inactive, then `stock < qty`; an inactive error names an inactive product on some line, and a stock error names an active product with its stock below some line's qty. |
| Checkout.FilledIffTrimmed | backend/app/Http/Controllers/CheckoutController.php:15-20 | The `required` test on the customer strings fails exactly when PHP's `trim` leaves nothing. |
| Checkout.Commit | backend/app/Http/Controllers/CheckoutController.php:58-113 | The success path builds an order satisfying `OrderFromRequest`, keeps the catalogue's keys, and lowers each product's stock by its summed line qty. |
| Checkout.ShippingFee | backend/app/Http/Controllers/CheckoutController.php:72-81 | The fee is one of 0/30000/60000. It is 0 from a subtotal of 1,000,000; below that, it is 30000 for a normalised city of `tehran` or `تهران` and 60000 for every other city. |
| Checkout.FeeRulesAgree | backend/app/Services/ShippingService.php:10-23 | The calculator and the inline rule charge the same fee except below the threshold for a city that normalises to `تهران`. |
| Checkout.OrderCodeRoundTrip | backend/app/Http/Controllers/CheckoutController.php:100 | The code `ORD-<year>-<id padded to 6>` parses back to the year and the id. |
| Checkout.OrderCodeShape | backend/app/Http/Controllers/CheckoutController.php:100 | The code starts with `ORD-` and is at least 15 characters long. |
| Checkout.DistinctLinesKeepStock | backend/app/Http/Controllers/CheckoutController.php:32-56 | With distinct product ids, no ordered product's stock goes negative, and non-negative stock stays non-negative. |
| Checkout.DuplicateLinesOverdraw | backend/app/Http/Controllers/CheckoutController.php:50 | Two lines of one unit each for a product with stock 1 are accepted and leave stock -1. |
| Checkout.ShowMine | backend/app/Http/Controllers/CheckoutController.php:129-136 | The order is returned iff the requester owns it; otherwise the result is Forbidden. |
| Checkout.PlacedOrderShownOnlyToPlacer | backend/app/Http/Controllers/CheckoutController.php:129-136 | An order that `store` accepted carries the placing user's id (written at line 86), so `showMine` returns it to exactly that user and answers Forbidden to everyone else. |
| Fulfilment.PlacedItemsMatchLines | backend/app/Http/Controllers/CheckoutController.php:58-68 | The placed order's items carry, per product, the same total qty as the request lines. |
| Fulfilment.CancelRestoresTakenStock | backend/app/Http/Controllers/Admin/OrderController.php:89-102 | Cancelling returns a catalogue that was reduced by the order's items to what it was before. |
| Fulfilment.CancelUndoesCheckout | backend/app/Http/Controllers/CheckoutController.php:109-112 | Cancelling a freshly placed order gives back exactly the catalogue the checkout started from. |
| Fulfilment.DestroyForfeitsRestock | backend/app/Http/Controllers/Admin/OrderController.php:112-116 | After `destroy`, a regular cancel is a no-op, so the stock the checkout took is never returned. |
| Fulfilment.RestockAtMostOnce | backend/app/Http/Controllers/Admin/OrderController.php:89 | Over any sequence of admin updates the catalogue ends restocked exactly when the order ends cancelled, and a cancelled order stays cancelled. |
| MergedCheckout.Merge | backend/app/Http/Controllers/CheckoutController.php:32 | The merged lines have distinct product ids, the same set of products, the same total qty per product, and quantities of at least one whenever the input's are. |
| MergedCheckout.MergedAcceptsIff | backend/app/Http/Controllers/CheckoutController.php:32-56 | The merged checkout accepts iff the request validates and each product is active with a stock of at least its total requested qty. |
| MergedCheckout.MergedKeepsStock | backend/app/Http/Controllers/CheckoutController.php:109-112 | After a merged checkout each stock falls by the product's total qty and never goes below zero. |
| Shipping.Calculate | backend/app/Services/ShippingService.php:8-29 | The fee is one of 0/30000/60000, and the method is free iff the fee is 0. A subtotal of 1,000,000 or more is free. Below that, a normalised city of `tehran` gives courier with 30000; anything else gives post with 60000. |
| Shipping.CapitalisedBranchDead | backend/app/Services/ShippingService.php:15 | The lower-cased city never equals `Tehran`. |
| Shipping.FeeNonIncreasing | backend/app/Services/ShippingService.php:12-23 | For a fixed city, a larger subtotal never costs more. |
| Cart.Add | frontend/src/Context/CartContext.jsx:14-40 | An existing product gets qty + 1 and the new title and price; a new product is appended with qty 1. Unique ids and positive quantities are kept. |
| Cart.Remove | frontend/src/Context/CartContext.jsx:42-44 | A line survives exactly when it was in the cart and belongs to another product; the cart never grows. |
| Cart.RemoveFacts | frontend/src/Context/CartContext.jsx:42-44 | After `remove` no line of the product is left, and a cart without the product comes back unchanged. |
| Cart.RemoveKeepsInvariants | frontend/src/Context/CartContext.jsx:42-44 | `remove` keeps ids unique and quantities positive. |
| Cart.RemoveExactlyOne | frontend/src/Context/CartContext.jsx:42-44 | With unique ids, `remove` deletes exactly the matching line and keeps the rest in order. |
| Cart.RemoveAfterAdd | frontend/src/Context/CartContext.jsx:14-44 | Removing a product after adding it leaves what removing it alone would. |
| Cart.Inc | frontend/src/Context/CartContext.jsx:46-52 | The length is kept; each line of the product gets qty + 1 with everything else kept, and every other line is unchanged. Unique ids and positive quantities are kept. |
| Cart.Dec | frontend/src/Context/CartContext.jsx:54-64 | On positive quantities, the length is kept, the matching line goes to max(1, qty-1) keeping its title and price, and the others are unchanged. |
| Cart.DecAfterInc | frontend/src/Context/CartContext.jsx:46-64 | On positive quantities, `dec` after `inc` gives back the cart. |
| Cart.UpdateQty | frontend/src/Context/CartContext.jsx:66-71 | Only matching lines change, to max(1, floor(q)) (q = 0 counts as 1); ids and positive quantities are kept. |
| Cart.TotalAfterInc | frontend/src/Context/CartContext.jsx:46-52 | With unique ids, `inc` raises the total by that line's price. |
| Cart.TotalAfterAddNew | frontend/src/Context/CartContext.jsx:30-38 | Adding a new product raises the total by its price. |
| Cart.Clear | frontend/src/Context/CartContext.jsx:73-76 | The cart is empty and its total is 0. |
| CheckoutPage.StockView | frontend/src/pages/Checkout.jsx:97-100 | The stock map has an entry per catalogue product carrying its stock and active flag. |
| CheckoutPage.ProblemFor | frontend/src/pages/Checkout.jsx:122-140 | There is no problem exactly when there is no metadata or the product is active with 0 < qty ≤ stock. Otherwise one problem is reported: inactive exactly when the product is inactive, then out of stock exactly when active with stock ≤ 0, then `Only N left` exactly when active with 0 < stock < qty. |
| CheckoutPage.StockProblems | frontend/src/pages/Checkout.jsx:122-143 | The list is empty iff no item has a problem; every listed problem belongs to a cart item, and every item with a problem has its problem listed. |
| CheckoutPage.StockProblemsAppend | frontend/src/pages/Checkout.jsx:122-143 | The list keeps cart order: for a cart split in two, it is the first part's problems followed by the second part's. |
| CheckoutPage.FlagsAgreeWithServer | frontend/src/pages/Checkout.jsx:128-138 | Against current metadata and qty ≥ 1, an item is flagged iff the server's line check rejects it, and inactive matches inactive. |
| CheckoutPage.PlaceableLinesPass | frontend/src/pages/Checkout.jsx:145-151 | When the page allows placing, every known line passes the server's line check. |
| CheckoutPage.ShippingPreview | frontend/src/pages/Checkout.jsx:21-23 | The previewed fee is always 0. |
| CheckoutPage.TotalPreview | frontend/src/pages/Checkout.jsx:51-64 | The total preview equals the cart's sum of price times qty. |
| CheckoutPage.PreviewOmitsFee | frontend/src/pages/Checkout.jsx:21-23 | The preview shows 0 where the server charges 60000. |
| CheckoutPage.FormCustomer | frontend/src/pages/Checkout.jsx:174-178 | Fields are trimmed with JavaScript's white-space set, the e-mail is also lower-cased, and a phone that trims to nothing is sent as null. |
| CheckoutPage.BuildPayload | frontend/src/pages/Checkout.jsx:172-183 | The customer block is `FormCustomer` of the form (JavaScript trim); items keep cart order and carry only product id and qty. |
| CheckoutPage.PayloadIsNormal | frontend/src/pages/Checkout.jsx:174-178 | Building the customer block from its own fields changes nothing. |
| CartDrawer.QtyHint | frontend/src/components/CartDrawer.jsx:108-115 | There is no hint exactly without metadata. `only N left` means stock < qty; `stock: N` means qty ≤ stock. |
| CartDrawer.HintMatchesProblem | frontend/src/components/CartDrawer.jsx:108-115 | For qty ≥ 1 the hint names a problem exactly when the checkout page reports one, of the same kind. |
| CartDrawer.LineProblemAgrees | frontend/src/components/CartDrawer.jsx:79-86 | For qty ≥ 1, the drawer's per-line test equals the checkout page's. |
| CartDrawer.HasProblemIffProblems | frontend/src/components/CartDrawer.jsx:79-86 | For positive quantities, `hasStockProblem` iff `stockProblems` is non-empty. |
| CartDrawer.CanCheckoutAgrees | frontend/src/components/CartDrawer.jsx:88-93 | For positive quantities, `canCheckout` equals the page's `canPlaceOrder` when no order is being placed. |
| CartDrawer.IncKeepsLineClear | frontend/src/components/CartDrawer.jsx:95-100 | An increment `canInc` allows raises that line by one and leaves it without a stock problem. |
| CartDrawer.DecByOne | frontend/src/components/CartDrawer.jsx:102-106 | A decrement `canDec` allows lowers that line by exactly one. |
| StockBadge.Classify | frontend/src/components/StockBadge.jsx:4-32 | Inactive iff not active. Out of stock iff active with stock ≤ 0. Low iff active with 0 < stock ≤ threshold. In stock iff active with stock above both 0 and the threshold. The count shown is the stock. |
| StockBadge.Render | frontend/src/components/StockBadge.jsx:1-2 | With every prop given the badge is `Classify` of them; with no flag and no stock it is out of stock; with no flag and no threshold a stock of 1-5 is low and above 5 in stock. |
| StockBadge.RenderDefaults | frontend/src/components/StockBadge.jsx:1-2 | A missing stock renders as stock 0, a missing flag as active, a missing threshold as 5, each whatever the other props are. |
| StockBadge.AvailabilityIgnoresThreshold | frontend/src/components/StockBadge.jsx:4-32 | Whether a count is shown depends only on active and stock > 0. |
| Shop.Keep | frontend/src/pages/Shop.jsx:134-142 | The result is a sub-multiset of the input, holding exactly the input's products that pass the filters, the query trimmed as JavaScript does and lower-cased. |
| Shop.Sort | frontend/src/pages/Shop.jsx:144-154 | The output is ordered by the select's key and is a permutation of the input. |
| Shop.Filtered | frontend/src/pages/Shop.jsx:133-157 | A product is shown iff it is in the input and passes the filters (query trimmed as JavaScript does); the list is a sub-multiset of the input and sorted. |
| Shop.FilteredSatisfiesFilters | frontend/src/pages/Shop.jsx:134-142 | Shown products are active under onlyActive and in stock under onlyInStock, and contain the trimmed, lower-cased query. |
| Shop.FilteredOrder | frontend/src/pages/Shop.jsx:144-154 | `price_asc` is non-decreasing and `price_desc` non-increasing by price; otherwise the newest comes first. |
| Shop.AddToCart | frontend/src/pages/Shop.jsx:159-179 | Inactive or out-of-stock products leave the cart as it is; otherwise the product ends up in the cart. |
| Shop.AddToCartChangesIff | frontend/src/pages/Shop.jsx:163-175 | The cart stays the same iff the product is inactive or has stock ≤ 0. |
| Shop.AddToCartMatchesBadge | frontend/src/pages/Shop.jsx:163-175 | A product is added iff its badge shows a count. |
| AdminOrdersPage.UiFlow | frontend/src/pages/admin/Orders.jsx:30-36 | `FLOW` has a row exactly for the five names. |
| AdminOrdersPage.FlowRowMatchesServer | frontend/src/pages/admin/Orders.jsx:30-36 | Each row is the status itself followed by the server's `transitionFlow` entry. |
| AdminOrdersPage.UiAllowsIffServer | frontend/src/pages/admin/Orders.jsx:30-36 | For a known status and a target in normal form, the target is in the row iff the server's `canTransition` holds. |
| AdminOrdersPage.OpenStatus | frontend/src/pages/admin/Orders.jsx:148-156 | The dialog preselects the lower-cased current status when it is known, and pending otherwise. |
| AdminOrdersPage.UnknownFromBlocks | frontend/src/pages/admin/Orders.jsx:190-195 | An empty or unknown current status rejects every target. |
| AdminOrdersPage.GuardImpliesServerAccepts | frontend/src/pages/admin/Orders.jsx:186-195 | Any status change the page lets through, the server's `update` accepts. |
| AdminOrdersPage.AllowedStatusOptions | frontend/src/pages/admin/Orders.jsx:223-226 | The options are the status's row, or all of `STATUS` for an unknown status. |
| AdminOrdersPage.FallbacksDisagree | frontend/src/pages/admin/Orders.jsx:148-226 | For an unknown status the select offers all five statuses, the dialog preselects pending, and the guard refuses every option. |
| AdminOrdersPage.PatchStatus | frontend/src/pages/admin/Orders.jsx:206-208 | Only rows with the order's id change: they get the new status and keep their tracking code; the row count is kept. |
| AdminOrdersPage.PatchTracking | frontend/src/pages/admin/Orders.jsx:176-178 | Only rows with the order's id change: they get the stored tracking code and keep their status; the row count is kept. |
| AdminOrdersPage.PatchesSettle | frontend/src/pages/admin/Orders.jsx:176-208 | Patching twice is patching once, and patching with the held status is a no-op. |
| AdminOrdersPage.TrackingPayload | frontend/src/pages/admin/Orders.jsx:167 | An input that JavaScript's `trim` empties is sent as null; otherwise the trimmed input is sent. |
| AdminOrdersPage.TrackingRoundTrip | frontend/src/pages/admin/Orders.jsx:165-170 | A trimmed code of at most 100 characters is stored by the server as sent. |
| Wishlist.Toggle | backend/app/Http/Controllers/WishlistController.php:29-42 | For a known product: `liked` is true iff it was absent, membership afterwards equals `liked`, and other products are untouched. An unknown product is not found. |
| Wishlist.ToggleTwice | backend/app/Http/Controllers/WishlistController.php:33-41 | Toggling twice restores the wishlist. |
| Wishlist.Remove | backend/app/Http/Controllers/WishlistController.php:44-48 | The product is absent afterwards and others are untouched. |
| Wishlist.RemoveIdempotent | backend/app/Http/Controllers/WishlistController.php:44-48 | Removing twice is removing once. |
| Wishlist.Index | backend/app/Http/Controllers/WishlistController.php:17-27 | The shown ids are the wishlisted active products, a subset of `ids`. |
| Wishlist.IndexAfterToggle | backend/app/Http/Controllers/WishlistController.php:17-42 | After a toggle, the product is on the `index` list iff the toggle reported `liked` and the product is active; no other product's place on the list changes. |
| Wishlist.Ids | backend/app/Http/Controllers/WishlistController.php:10-15 | An id is listed iff it is on the user's wishlist and the product still exists; the join with the products drops deleted ones. |
| Wishlist.IdsAndIndexDiffer | backend/app/Http/Controllers/WishlistController.php:10-27 | `ids` and `index` differ exactly on the wishlisted products that exist but are inactive. |
| Wishlist.LikedInactiveHidden | backend/app/Http/Controllers/WishlistController.php:10-27 | A liked product that is inactive is counted by `ids` but hidden by `index`, so `index` is strictly shorter than `ids`. |
| WishlistClient.Toggle | frontend/src/context/WishlistContext.jsx:51-86 | Without a token the call throws and the set is unchanged. On an answer, membership equals `res.liked`, which is returned. On failure an error is thrown. Other ids are untouched. |
| WishlistClient.Flip | frontend/src/context/WishlistContext.jsx:57-62 | The optimistic step flips exactly one id. |
| WishlistClient.FailureRollsBack | frontend/src/context/WishlistContext.jsx:76-82 | A failed request leaves the set as before the call. |
| WishlistClient.FlipCount | frontend/src/context/WishlistContext.jsx:57-88 | The optimistic step moves `count` by exactly one. |
| WishlistClient.ClientFollowsServer | frontend/src/context/WishlistContext.jsx:64-74 | Starting from the server's wishlist, a successful toggle ends with exactly the server's new wishlist. |
| Roles.SetRole | backend/app/Http/Controllers/Admin/UserController.php:27-48 | Accepted iff the target exists, the role is user or admin, the target is not a super_admin and is not the caller. On success only the target's role changes. |
| Roles.SetRoleKeepsSuperAdmins | backend/app/Http/Controllers/Admin/UserController.php:33-42 | One role change keeps the set of super_admins. |
| Roles.RoleRequestsKeepSuperAdmins | backend/app/Http/Controllers/Admin/UserController.php:29-42 | No sequence of role changes creates or removes a super_admin, or adds or drops a user. |

## Left out

- Database row locks and transactions. Each request is one atomic step on the catalogue, so concurrency and lock ordering are not modelled.
- The idempotency key. The checkout page sends `client_request_id`, but `store` never reads it, so duplicate submissions are not deduplicated and the model does not pretend otherwise.
- `shipping_method` at checkout. The controller never calls the calculator and never writes the method. The two fee rules are modelled separately and related by `Checkout.FeeRulesAgree`.
- Clock and database identity. The year of the order code and the new order's id are parameters.
- The e-mail format rule. Laravel's `TrimStrings` and `ConvertEmptyStringsToNull` middleware are not modelled either: validation and storage see the fields as sent, and only `required`'s own trim (`Checkout.Filled`) and the controller's trim of the city apply.
- Unicode case mapping. Lower-casing (`strtolower`, `mb_strtolower`, `toLowerCase`) covers ASCII letters only. The Persian city name has no case, so the fee rules are exact for it; for product titles and search queries with non-ASCII capitals the shop's match is not modelled exactly.
- HTTP routing, authentication middleware, rendering, toasts, localStorage persistence and the fetch client. Requests are calls; responses are `Result` values.
- JavaScript object-prototype keys in `FLOW` lookups, and `NaN` quantities in `updateQty`. The quantity is a real number, and `Number(...)` conversions of non-numeric input are not modelled.
- Cart.Add: assumes the caller passes a title and price, as every caller does; the `??` fallback to the old values is not modelled.
- Shop.Sort: the sort is proved ordered and a permutation; the stability of `Array.prototype.sort` is not stated. Parsing `created_at` into milliseconds is taken as given.
- Wishlist.Index: ordering by `latest('wishlists.id')` is not modelled; the result is a set.
- WishlistClient.Toggle: interleaved updates from concurrent toggles are not modelled. Hydration (`ids` on token change) is a plain read.
- The cart drawer's and checkout page's stock loading is I/O. Its outcome (the map, loading and failed flags) is a parameter.
- Stock is an unbounded integer, and the source's integer widths are not modelled, since no arithmetic here approaches them.
- `Checkout.PlaceOrder`'s `ProductNotFound` outcome is unreachable. Validation already requires every product id to exist, as the `exists:products,id` rule does.

## Findings

| source | as written | input that shows it | evidently intended | confidence | as-written member | corrected member |
|---|---|---|---|---|---|---|
| backend/app/Http/Controllers/CheckoutController.php:32-56,109-112 | Each line is checked against the stock loaded before the loop (`$p->stock < $qty`), but every line is decremented. | Catalogue `{7: stock 1, active}`, lines `[(7, 1), (7, 1)]`: accepted, stock ends at -1. | Check the total requested per product, as merging lines by product first does, so stock never goes negative. | not executed | Checkout.DuplicateLinesOverdraw | MergedCheckout.MergedKeepsStock |

=== FILE: admin_orders.dfy ===
/**
 * The admin side of the order lifecycle (`Admin\OrderController`): the
 * status update that applies the transition table and restocks on
 * cancellation, the tracking-code write, the unchecked cancel of
 * `destroy`, and the page-size clamp of the listing.
 */
module AdminOrders {
  import opened Wrappers
  import opened Text
  import opened Store
  import opened OrderStatus

  datatype UpdateError =
    | StatusNotAllowed
    | InvalidTransition(from: string, to: string, allowedNext: seq<string>)
    | TrackingTooLong

  /** The order after the update and the catalogue after any restock. */
  datatype Updated = Updated(order: Order, catalog: Catalog)

  /**
   * `update`: the requested status must be one of the five names (an exact
   * match, see `OrderStatus.AllowedNamesExact`); the move
   * must pass `canTransition`; moving into `cancelled` from any other stored
   * status adds every item's qty back to stock.
   */
  function UpdateStatus(o: Order, cat: Catalog, to: string): (r: Result<Updated, UpdateError>)
    ensures Parse(to).None? ==> r == Err(StatusNotAllowed)
    ensures Parse(to).Some? && !CanTransition(o.status, to) ==>
      r == Err(InvalidTransition(o.status, to, AllowedNext(Lower(o.status))))
    ensures r.Ok? <==> Parse(to).Some? && CanTransition(o.status, to)
    ensures r.Ok? ==> r.value.order == o.(status := to)
    ensures r.Ok? && to == "cancelled" && o.status != "cancelled" ==>
      r.value.catalog == Restock(cat, o.items)
    ensures r.Ok? && (to != "cancelled" || o.status == "cancelled") ==> r.value.catalog == cat
  {
    if Parse(to).None? then Err(StatusNotAllowed)
    else if !CanTransition(o.status, to) then
      Err(InvalidTransition(o.status, to, AllowedNext(Lower(o.status))))
    else
      var cat' := if to == "cancelled" && o.status != "cancelled" then Restock(cat, o.items) else cat;
      Ok(Updated(o.(status := to), cat'))
  }

  /** `destroy`: marks the order cancelled from any state, with no check and no restock. */
  function Destroy(o: Order): (r: Order)
    ensures r.status == "cancelled"
    ensures r.(status := o.status) == o
  {
    o.(status := "cancelled")
  }

  /** `setTracking`: a nullable string of at most 100 characters. */
  function SetTracking(o: Order, code: Option<string>): (r: Result<Order, UpdateError>)
    ensures r.Ok? <==> (code.None? || |code.value| <= 100)
    ensures r.Ok? ==> r.value.tracking == code && r.value.(tracking := o.tracking) == o
  {
    if code.Some? && |code.value| > 100 then Err(TrackingTooLong) else Ok(o.(tracking := code))
  }

  const DefaultPerPage := 10
  const MaxPerPage := 50

  /** `max(1, min(per_page ?? 10, 50))`. */
  function PerPage(requested: Option<int>): (n: int)
    ensures 1 <= n <= MaxPerPage
    ensures requested.None? ==> n == DefaultPerPage
    ensures requested.Some? && 1 <= requested.value <= MaxPerPage ==> n == requested.value
    ensures requested.Some? && requested.value < 1 ==> n == 1
    ensures requested.Some? && requested.value > MaxPerPage ==> n == MaxPerPage
  {
    var p := match requested case Some(v) => v case None => DefaultPerPage;
    var capped := if p < MaxPerPage then p else MaxPerPage;
    if capped > 1 then capped else 1
  }

  /** Re-cancelling a cancelled order succeeds and restocks nothing. */
  lemma ReCancelIsNoOp(o: Order, cat: Catalog)
    requires o.status == "cancelled"
    ensures UpdateStatus(o, cat, "cancelled") == Ok(Updated(o, cat))
  {
  }

  /**
   * Cancelling adds each item's qty back to its product, and touches
   * nothing else, whenever the move is allowed and the order is not
   * already cancelled.
   */
  lemma CancelRestocks(o: Order, cat: Catalog, p: ProductId)
    requires CanTransition(o.status, "cancelled") && o.status != "cancelled"
    requires p in cat
    ensures UpdateStatus(o, cat, "cancelled").Ok?
    ensures UpdateStatus(o, cat, "cancelled").value.catalog[p]
      == cat[p].(stock := cat[p].stock + ItemQty(o.items, p))
  {
    CancelAppliesRestock(o, cat);
  }

  /** An allowed cancel of a live order is exactly a status write plus a restock. */
  lemma CancelAppliesRestock(o: Order, cat: Catalog)
    requires CanTransition(o.status, "cancelled") && o.status != "cancelled"
    ensures UpdateStatus(o, cat, "cancelled")
      == Ok(Updated(o.(status := "cancelled"), Restock(cat, o.items)))
  {
    KnownNames();
  }

  /** Every status that is not yet final may move to `cancelled`. */
  lemma Cancellable(s: Status)
    requires s != Delivered && s != Cancelled
    ensures CanTransition(Name(s), "cancelled") && Name(s) != "cancelled"
  {
    TransitionTable(s, Cancelled);
    NameInjective(s, Cancelled);
  }

  /** Pending, confirmed and shipped orders may be cancelled. */
  lemma CancellableStatuses(o: Order)
    requires o.status in {"pending", "confirmed", "shipped"}
    ensures CanTransition(o.status, "cancelled") && o.status != "cancelled"
  {
    var s := if o.status == "pending" then Pending
      else if o.status == "confirmed" then Confirmed
      else Shipped;
    assert o.status == Name(s);
    Cancellable(s);
  }

  /** A canonical status other than `cancelled` is the only thing `cancelled` moves to. */
  lemma CancelledIsTerminal(o: Order, cat: Catalog, to: string)
    requires o.status == "cancelled"
    requires to != "cancelled"
    ensures UpdateStatus(o, cat, to).Err?
  {
    if Parse(to).Some? {
      var t := Parse(to).value;
      TransitionTable(Cancelled, t);
    }
  }

  lemma PendingLower()
    ensures Lower("pending") == "pending"
    ensures AllowedNext("pending") == ["confirmed", "cancelled"]
  {
    NameIsNormal(Pending);
    TrimOfTrimmed("pending");
    KnownNames();
    assert AllowedNext("pending") == Names([Confirmed, Cancelled]);
  }

  /** `pending -> shipped` is refused and reports the two allowed successors. */
  lemma PendingToShippedRefused(o: Order, cat: Catalog)
    requires o.status == "pending"
    ensures UpdateStatus(o, cat, "shipped")
      == Err(InvalidTransition("pending", "shipped", ["confirmed", "cancelled"]))
  {
    assert Name(Pending) == o.status && Name(Shipped) == "shipped";
    TransitionTable(Pending, Shipped);
    KnownNames();
    PendingLower();
  }
}

=== FILE: admin_orders_page.dfy ===
/**
 * The admin orders page: its own copy of the transition table (`FLOW`),
 * the status the dialog preselects, the check made before a status
 * request is sent, the options the select offers, and the patches applied
 * to the table rows after a successful request.
 */
module AdminOrdersPage {
  import opened Wrappers
  import opened Text
  import opened Store
  import opened OrderStatus
  import AdminOrders

  /** `STATUS`: the five statuses in display order. */
  const StatusList: seq<string> := ["pending", "confirmed", "shipped", "delivered", "cancelled"]

  /** One row of `FLOW`: the status itself first, then where it may go. */
  function FlowRow(s: Status): seq<string>
  {
    match s
    case Pending => ["pending", "confirmed", "cancelled"]
    case Confirmed => ["confirmed", "shipped", "cancelled"]
    case Shipped => ["shipped", "delivered", "cancelled"]
    case Delivered => ["delivered"]
    case Cancelled => ["cancelled"]
  }

  /** `FLOW[key]`: defined for the five names only. */
  function UiFlow(key: string): (r: Option<seq<string>>)
    ensures r.Some? <==> Parse(key).Some?
  {
    match Parse(key)
    case Some(s) => Some(FlowRow(s))
    case None => None
  }

  /** `String(x || d)`: a missing or empty status is replaced by `d`. */
  function StatusOr(status: Option<string>, d: string): (r: string)
    ensures status.Some? && status.value != "" ==> r == status.value
    ensures status.None? || status.value == "" ==> r == d
  {
    if status.Some? && status.value != "" then status.value else d
  }

  /** The page's row is the server's row with the status itself put first. */
  lemma {:induction false} FlowRowMatchesServer(s: Status)
    ensures FlowRow(s) == [Name(s)] + Names(Flow(s))
  {
    match s
    case Pending => assert Names([Confirmed, Cancelled]) == ["confirmed", "cancelled"];
    case Confirmed => assert Names([Shipped, Cancelled]) == ["shipped", "cancelled"];
    case Shipped => assert Names([Delivered, Cancelled]) == ["delivered", "cancelled"];
    case Delivered => assert Names([]) == [];
    case Cancelled => assert Names([]) == [];
  }

  /**
   * For every status the page knows, a target is in its row exactly when
   * the server's `canTransition` accepts it (for targets already in normal
   * form, which is all the select can produce).
   */
  lemma UiAllowsIffServer(s: Status, t: string)
    requires Norm(t) == t
    ensures t in FlowRow(s) <==> CanTransition(Name(s), t)
  {
    FlowRowMatchesServer(s);
    NameIsNormal(s);
    KnownNames();
    assert AllowedNext(Name(s)) == Names(Flow(s));
  }

  /** `openStatus`: the current status if the table knows it, otherwise the first entry of the fallback `["pending"]`. */
  function OpenStatus(status: Option<string>): (r: string)
    ensures Parse(Lower(StatusOr(status, "pending"))).Some? ==> r == Lower(StatusOr(status, "pending"))
    ensures Parse(Lower(StatusOr(status, "pending"))).None? ==> r == "pending"
  {
    var cur := Lower(StatusOr(status, "pending"));
    var allowed := match UiFlow(cur) case Some(row) => row case None => ["pending"];
    assert UiFlow(cur).Some? ==> cur in allowed by {
      if UiFlow(cur).Some? {
        assert cur == Name(Parse(cur).value);
      }
    }
    if cur in allowed then cur else allowed[0]
  }

  /** The check in `handleUpdateStatus`: the target must be in `FLOW[from]`, where an empty or unknown `from` allows nothing. */
  predicate GuardAllows(status: Option<string>, target: string)
  {
    var from := Lower(StatusOr(status, ""));
    match UiFlow(from)
    case Some(row) => target in row
    case None => false
  }

  /** An unknown or missing current status blocks every request. */
  lemma UnknownFromBlocks(status: Option<string>, target: string)
    requires Parse(Lower(StatusOr(status, ""))).None?
    ensures !GuardAllows(status, target)
  {
  }

  /** A lower-case status name has no white space at either end, so trimming it changes nothing. */
  lemma KnownLowerIsNorm(st: string)
    requires Parse(Lower(st)).Some?
    ensures Norm(st) == Lower(st)
  {
    var s := Parse(Lower(st)).value;
    assert |Lower(st)| > 0 by { KnownNames(); }
    assert !IsSpace(st[0]) && !IsSpace(st[|st| - 1]) by {
      NameIsNormal(s);
      assert Lower(st)[0] == LowerChar(st[0]);
      assert Lower(st)[|st| - 1] == LowerChar(st[|st| - 1]);
      assert Name(s) == Lower(st);
      assert !IsSpace(Name(s)[0]) && !IsSpace(Name(s)[|Name(s)| - 1]) by {
        assert Trim(Name(s)) == Name(s);
      }
    }
    TrimOfTrimmed(st);
  }

  /** Every entry of a row is one of the five names, in normal form. */
  lemma RowEntryIsName(s: Status, target: string)
    requires target in FlowRow(s)
    ensures Parse(target).Some? && Norm(target) == target
  {
    FlowRowMatchesServer(s);
    if target == Name(s) {
      ParseName(s);
      NameIsNormal(s);
    } else {
      assert target in Names(Flow(s));
      var i :| 0 <= i < |Names(Flow(s))| && Names(Flow(s))[i] == target;
      ParseName(Flow(s)[i]);
      NameIsNormal(Flow(s)[i]);
    }
  }

  /** Whatever the page lets through, the server's `update` accepts. */
  lemma GuardImpliesServerAccepts(o: Order, cat: Catalog, target: string)
    requires o.status != ""
    requires GuardAllows(Some(o.status), target)
    ensures AdminOrders.UpdateStatus(o, cat, target).Ok?
  {
    var s := Parse(Lower(o.status)).value;
    KnownLowerIsNorm(o.status);
    assert Norm(o.status) == Name(s);
    RowEntryIsName(s, target);
    UiAllowsIffServer(s, target);
    NameIsNormal(s);
    assert CanTransition(o.status, target);
  }

  /** `allowedStatusOptions`: the row for the current status, or all five statuses when the table does not know it. */
  function AllowedStatusOptions(status: Option<string>): (r: seq<string>)
    ensures Parse(Lower(StatusOr(status, "pending"))).None? ==> r == StatusList
    ensures Parse(Lower(StatusOr(status, "pending"))).Some? ==>
      r == FlowRow(Parse(Lower(StatusOr(status, "pending"))).value)
  {
    match UiFlow(Lower(StatusOr(status, "pending")))
    case Some(row) => row
    case None => StatusList
  }

  /**
   * For a status the table does not know, the select offers all five
   * statuses while the dialog preselects `pending`, and the submit check
   * refuses every one of them.
   */
  lemma FallbacksDisagree(st: string)
    requires st != "" && Parse(Lower(st)).None?
    ensures AllowedStatusOptions(Some(st)) == StatusList
    ensures OpenStatus(Some(st)) == "pending"
    ensures forall t :: t in AllowedStatusOptions(Some(st)) ==> !GuardAllows(Some(st), t)
  {
  }

  /** A table row: only the fields the patches touch. */
  datatype Row = Row(id: int, status: string, tracking: Option<string>)

  /** `rows.map(r => r.id === id ? f(r) : r)`: the shared shape of both patches. */
  function Patch(rows: seq<Row>, id: int, f: Row -> Row): (r: seq<Row>)
    ensures |r| == |rows|
    ensures forall i :: 0 <= i < |rows| && rows[i].id == id ==> r[i] == f(rows[i])
    ensures forall i :: 0 <= i < |rows| && rows[i].id != id ==> r[i] == rows[i]
  {
    seq(|rows|, i requires 0 <= i < |rows| => if rows[i].id == id then f(rows[i]) else rows[i])
  }

  /** After a successful status request, the row with the order's id gets the new status and keeps its tracking code. */
  function PatchStatus(rows: seq<Row>, id: int, status: string): (r: seq<Row>)
    ensures |r| == |rows|
    ensures forall i :: 0 <= i < |rows| && rows[i].id == id ==>
      r[i].id == id && r[i].status == status && r[i].tracking == rows[i].tracking
    ensures forall i :: 0 <= i < |rows| && rows[i].id != id ==> r[i] == rows[i]
  {
    Patch(rows, id, (x: Row) => x.(status := status))
  }

  /** After a successful tracking request, the row with the order's id gets the stored code and keeps its status. */
  function PatchTracking(rows: seq<Row>, id: int, tracking: Option<string>): (r: seq<Row>)
    ensures |r| == |rows|
    ensures forall i :: 0 <= i < |rows| && rows[i].id == id ==>
      r[i].id == id && r[i].tracking == tracking && r[i].status == rows[i].status
    ensures forall i :: 0 <= i < |rows| && rows[i].id != id ==> r[i] == rows[i]
  {
    Patch(rows, id, (x: Row) => x.(tracking := tracking))
  }

  /** Patching with the value a row already holds changes nothing; patching twice is patching once. */
  lemma PatchesSettle(rows: seq<Row>, id: int, status: string, tracking: Option<string>)
    ensures PatchStatus(PatchStatus(rows, id, status), id, status) == PatchStatus(rows, id, status)
    ensures PatchTracking(PatchTracking(rows, id, tracking), id, tracking) == PatchTracking(rows, id, tracking)
    ensures (forall i :: 0 <= i < |rows| && rows[i].id == id ==> rows[i].status == status)
            ==> PatchStatus(rows, id, status) == rows
  {
  }

  /** The tracking field as sent: trimmed as JavaScript does, and null when blank. */
  function TrackingPayload(input: string): (r: Option<string>)
    ensures r.None? <==> JsTrim(input) == ""
    ensures r.Some? ==> r.value == JsTrim(input)
  {
    var t := JsTrim(input);
    if t == "" then None else Some(t)
  }

  /** The server stores what the page sends whenever the trimmed code fits in 100 characters. */
  lemma TrackingRoundTrip(o: Order, input: string)
    requires |JsTrim(input)| <= 100
    ensures AdminOrders.SetTracking(o, TrackingPayload(input)).Ok?
    ensures AdminOrders.SetTracking(o, TrackingPayload(input)).value.tracking == TrackingPayload(input)
  {
  }
}

=== FILE: cart.dfy ===
/**
 * The client cart (`CartContext`): a sequence of lines keyed by product id,
 * with add, remove, inc, dec, updateQty, clear and the running total.
 */
module Cart {

  datatype CartLine = CartLine(productId: int, title: string, price: int, qty: int)

  type Cart = seq<CartLine>

  predicate HasProduct(cart: Cart, pid: int)
  {
    exists i :: 0 <= i < |cart| && cart[i].productId == pid
  }

  /** No product id appears on two lines. */
  predicate UniqueIds(cart: Cart)
  {
    forall i, j :: 0 <= i < j < |cart| ==> cart[i].productId != cart[j].productId
  }

  /** Every quantity is at least one. */
  predicate PositiveQty(cart: Cart)
  {
    forall i :: 0 <= i < |cart| ==> cart[i].qty >= 1
  }

  function Max(a: int, b: int): int
  {
    if a >= b then a else b
  }

  /** `prev.map(x => x.product_id === pid ? f(x) : x)`. */
  function SetLine(cart: Cart, pid: int, f: CartLine -> CartLine): (r: Cart)
    ensures |r| == |cart|
    ensures forall i :: 0 <= i < |cart| ==> r[i] == if cart[i].productId == pid then f(cart[i]) else cart[i]
  {
    seq(|cart|, i requires 0 <= i < |cart| => if cart[i].productId == pid then f(cart[i]) else cart[i])
  }

  /**
   * `add`: a product already in the cart gets one more unit and the
   * current title and price; a new product is appended with qty 1.
   */
  function Add(cart: Cart, pid: int, title: string, price: int): (r: Cart)
    ensures HasProduct(cart, pid) ==> |r| == |cart| && forall i :: 0 <= i < |cart| ==>
      r[i] == if cart[i].productId == pid
              then CartLine(pid, title, price, cart[i].qty + 1)
              else cart[i]
    ensures !HasProduct(cart, pid) ==> r == cart + [CartLine(pid, title, price, 1)]
    ensures UniqueIds(cart) ==> UniqueIds(r)
    ensures PositiveQty(cart) ==> PositiveQty(r)
    ensures HasProduct(r, pid)
  {
    if HasProduct(cart, pid) then
      SetLine(cart, pid, (x: CartLine) => x.(title := title, price := price, qty := x.qty + 1))
    else
      var r := cart + [CartLine(pid, title, price, 1)];
      assert r[|cart|].productId == pid;
      r
  }

  /** `remove`: drop the lines of this product, keep the rest in order. */
  function Remove(cart: Cart, pid: int): (r: Cart)
    ensures |r| <= |cart|
    ensures forall l :: l in r <==> l in cart && l.productId != pid
    decreases |cart|
  {
    if |cart| == 0 then []
    else
      var rest := Remove(cart[1..], pid);
      assert forall l :: l in cart <==> l == cart[0] || l in cart[1..];
      if cart[0].productId == pid then rest else [cart[0]] + rest
  }

  /** After `remove` the product is gone; a cart without it is left as it is. */
  lemma {:induction false} RemoveFacts(cart: Cart, pid: int)
    ensures !HasProduct(Remove(cart, pid), pid)
    ensures !HasProduct(cart, pid) ==> Remove(cart, pid) == cart
    decreases |cart|
  {
    var r := Remove(cart, pid);
    forall i | 0 <= i < |r| ensures r[i].productId != pid {
      assert r[i] in r;
    }
    if |cart| > 0 && !HasProduct(cart, pid) {
      forall i | 0 <= i < |cart[1..]| ensures cart[1..][i].productId != pid {
        assert cart[1..][i] == cart[i + 1];
      }
      RemoveFacts(cart[1..], pid);
    }
  }

  /** `remove` keeps ids unique and quantities positive. */
  lemma {:induction false} RemoveKeepsInvariants(cart: Cart, pid: int)
    ensures UniqueIds(cart) ==> UniqueIds(Remove(cart, pid))
    ensures PositiveQty(cart) ==> PositiveQty(Remove(cart, pid))
    decreases |cart|
  {
    var r := Remove(cart, pid);
    if PositiveQty(cart) {
      forall i | 0 <= i < |r| ensures r[i].qty >= 1 {
        assert r[i] in cart;
      }
    }
    if |cart| > 0 && UniqueIds(cart) {
      UniqueTail(cart);
      RemoveKeepsInvariants(cart[1..], pid);
      var rest := Remove(cart[1..], pid);
      if cart[0].productId != pid {
        forall i | 0 <= i < |rest| ensures rest[i].productId != cart[0].productId {
          assert rest[i] in cart[1..];
        }
        assert r == [cart[0]] + rest;
      }
    }
  }

  /** `inc`: one more unit on the matching line. */
  function Inc(cart: Cart, pid: int): (r: Cart)
    ensures |r| == |cart|
    ensures forall i :: 0 <= i < |cart| ==>
      r[i] == if cart[i].productId == pid then cart[i].(qty := cart[i].qty + 1) else cart[i]
    ensures UniqueIds(cart) ==> UniqueIds(r)
    ensures PositiveQty(cart) ==> PositiveQty(r)
  {
    SetLine(cart, pid, (x: CartLine) => x.(qty := x.qty + 1))
  }

  /** The step `dec` applies to the matching line: never below one. */
  function DecQty(q: int): int
  {
    Max(1, (if q == 0 then 1 else q) - 1)
  }

  /** `.filter(x => Number(x.qty || 0) > 0)`. */
  function KeepPositive(cart: Cart): (r: Cart)
    ensures PositiveQty(cart) ==> r == cart
    ensures PositiveQty(r)
    decreases |cart|
  {
    if |cart| == 0 then []
    else
      var rest := KeepPositive(cart[1..]);
      if cart[0].qty > 0 then [cart[0]] + rest else rest
  }

  /** `dec`: one unit fewer on the matching line, but never below one. */
  function Dec(cart: Cart, pid: int): (r: Cart)
    ensures PositiveQty(cart) ==> |r| == |cart|
    ensures PositiveQty(cart) ==> forall i :: 0 <= i < |cart| ==>
      r[i].productId == cart[i].productId && r[i].qty >= 1
      && (cart[i].productId == pid ==> r[i] == cart[i].(qty := Max(1, cart[i].qty - 1)))
      && (cart[i].productId != pid ==> r[i] == cart[i])
    ensures PositiveQty(r)
  {
    KeepPositive(SetLine(cart, pid, (x: CartLine) => x.(qty := DecQty(x.qty))))
  }

  /** The quantity `updateQty` writes: `max(1, floor(q || 1))`. */
  function ClampQty(q: real): (n: int)
    ensures n >= 1
    ensures q >= 1.0 ==> n == q.Floor
    ensures q < 1.0 ==> n == 1
  {
    Max(1, (if q == 0.0 then 1.0 else q).Floor)
  }

  /** `updateQty`: set the matching line's qty, clamped to at least one. */
  function UpdateQty(cart: Cart, pid: int, q: real): (r: Cart)
    ensures |r| == |cart|
    ensures forall i :: 0 <= i < |cart| ==>
      r[i] == if cart[i].productId == pid then cart[i].(qty := ClampQty(q)) else cart[i]
    ensures UniqueIds(cart) ==> UniqueIds(r)
    ensures PositiveQty(cart) ==> PositiveQty(r)
  {
    SetLine(cart, pid, (x: CartLine) => x.(qty := ClampQty(q)))
  }

  /** `clear`. */
  function Clear(): (r: Cart)
    ensures |r| == 0 && Total(r) == 0
  {
    []
  }

  function LineCost(l: CartLine): int
  {
    l.price * l.qty
  }

  /** `total`: the sum of price times qty over the lines. */
  function Total(cart: Cart): int
    decreases |cart|
  {
    if |cart| == 0 then 0 else LineCost(cart[0]) + Total(cart[1..])
  }

  lemma UniqueTail(cart: Cart)
    requires |cart| > 0 && UniqueIds(cart)
    ensures UniqueIds(cart[1..])
    ensures !HasProduct(cart[1..], cart[0].productId)
  {
    forall i | 0 <= i < |cart| - 1
      ensures cart[1..][i].productId != cart[0].productId
    {
      assert cart[1..][i] == cart[i + 1];
    }
  }

  /** One step of `remove`: the first line is dropped or kept, the rest is filtered. */
  lemma RemoveStep(cart: Cart, pid: int)
    requires |cart| > 0
    ensures cart[0].productId == pid ==> Remove(cart, pid) == Remove(cart[1..], pid)
    ensures cart[0].productId != pid ==> Remove(cart, pid) == [cart[0]] + Remove(cart[1..], pid)
  {
  }

  /** With unique ids, `remove` deletes exactly the one matching line. */
  lemma {:induction false} RemoveExactlyOne(cart: Cart, pid: int, k: int)
    requires UniqueIds(cart)
    requires 0 <= k < |cart| && cart[k].productId == pid
    ensures Remove(cart, pid) == cart[..k] + cart[k + 1..]
    decreases |cart|
  {
    var tail := cart[1..];
    UniqueTail(cart);
    RemoveStep(cart, pid);
    if k == 0 {
      RemoveFacts(tail, pid);
      assert cart[k + 1..] == tail;
    } else {
      assert cart[0].productId != pid;
      assert tail[k - 1] == cart[k];
      RemoveExactlyOne(tail, pid, k - 1);
      SplitAround(cart, k);
    }
  }

  lemma SplitAround(cart: Cart, k: int)
    requires 0 < k < |cart|
    ensures cart[..k] + cart[k + 1..] == [cart[0]] + (cart[1..][..k - 1] + cart[1..][k..])
  {
    assert cart[..k] == [cart[0]] + cart[1..][..k - 1];
    assert cart[k + 1..] == cart[1..][k..];
  }

  /** Patching the lines of a product makes no difference once they are removed. */
  lemma {:induction false} RemoveIgnoresPatch(cart: Cart, pid: int, f: CartLine -> CartLine)
    requires forall l: CartLine :: f(l).productId == l.productId
    ensures Remove(SetLine(cart, pid, f), pid) == Remove(cart, pid)
    decreases |cart|
  {
    if |cart| > 0 {
      assert SetLine(cart, pid, f)[1..] == SetLine(cart[1..], pid, f);
      RemoveIgnoresPatch(cart[1..], pid, f);
    }
  }

  lemma {:induction false} RemoveAppend(cart: Cart, l: CartLine, pid: int)
    requires l.productId == pid
    ensures Remove(cart + [l], pid) == Remove(cart, pid)
    decreases |cart|
  {
    if |cart| == 0 {
      assert Remove([l], pid) == Remove([], pid) + [];
    } else {
      assert (cart + [l])[1..] == cart[1..] + [l];
      RemoveAppend(cart[1..], l, pid);
    }
  }

  /** Removing a product undoes adding it: what is left is what was there besides it. */
  lemma RemoveAfterAdd(cart: Cart, pid: int, title: string, price: int)
    ensures Remove(Add(cart, pid, title, price), pid) == Remove(cart, pid)
  {
    if HasProduct(cart, pid) {
      RemoveIgnoresPatch(cart, pid, (x: CartLine) => x.(title := title, price := price, qty := x.qty + 1));
    } else {
      RemoveAppend(cart, CartLine(pid, title, price, 1), pid);
    }
  }

  /** On a cart of positive quantities, `dec` undoes `inc`. */
  lemma DecAfterInc(cart: Cart, pid: int)
    requires PositiveQty(cart)
    ensures Dec(Inc(cart, pid), pid) == cart
  {
    var once := Inc(cart, pid);
    var twice := SetLine(once, pid, (x: CartLine) => x.(qty := DecQty(x.qty)));
    assert twice == cart;
  }

  lemma {:induction false} TotalAfterPatch(cart: Cart, k: int, l: CartLine)
    requires 0 <= k < |cart|
    ensures Total(cart[k := l]) == Total(cart) - LineCost(cart[k]) + LineCost(l)
    decreases |cart|
  {
    if k > 0 {
      assert cart[k := l][1..] == cart[1..][k - 1 := l];
      TotalAfterPatch(cart[1..], k - 1, l);
    }
  }

  lemma LineCostInc(l: CartLine)
    ensures LineCost(l.(qty := l.qty + 1)) == LineCost(l) + l.price
  {
  }

  lemma SetLineUnique(cart: Cart, pid: int, f: CartLine -> CartLine, k: int)
    requires UniqueIds(cart)
    requires 0 <= k < |cart| && cart[k].productId == pid
    ensures SetLine(cart, pid, f) == cart[k := f(cart[k])]
  {
  }

  /** `inc` raises the total by the unit price of the matching line. */
  lemma TotalAfterInc(cart: Cart, pid: int, k: int)
    requires UniqueIds(cart)
    requires 0 <= k < |cart| && cart[k].productId == pid
    ensures Total(Inc(cart, pid)) == Total(cart) + cart[k].price
  {
    var f := (x: CartLine) => x.(qty := x.qty + 1);
    var l := cart[k].(qty := cart[k].qty + 1);
    SetLineUnique(cart, pid, f, k);
    assert Inc(cart, pid) == cart[k := l];
    TotalAfterPatch(cart, k, l);
    LineCostInc(cart[k]);
  }

  lemma {:induction false} TotalAppend(cart: Cart, l: CartLine)
    ensures Total(cart + [l]) == Total(cart) + LineCost(l)
    decreases |cart|
  {
    if |cart| == 0 {
      assert [l][1..] == [];
    } else {
      assert (cart + [l])[1..] == cart[1..] + [l];
      TotalAppend(cart[1..], l);
    }
  }

  /** Adding a product not yet in the cart raises the total by its price. */
  lemma TotalAfterAddNew(cart: Cart, pid: int, title: string, price: int)
    requires !HasProduct(cart, pid)
    ensures Total(Add(cart, pid, title, price)) == Total(cart) + price
  {
    TotalAppend(cart, CartLine(pid, title, price, 1));
  }
}

=== FILE: cart_drawer.dfy ===
/**
 * The cart drawer's stock gating: whether any line has a stock problem,
 * whether checkout is offered, whether the +/- buttons are enabled, and
 * the hint shown under each quantity.
 */
module CartDrawer {
  import opened Wrappers
  import opened Cart
  import opened CheckoutPage

  /** A line the drawer counts as a problem: known and inactive, or more in the cart than in stock. */
  predicate LineHasProblem(it: CartLine, m: StockMap)
  {
    it.productId in m && (!m[it.productId].active || it.qty > m[it.productId].stock)
  }

  /** `hasStockProblem`: some line is a problem. */
  predicate HasStockProblem(cart: Cart, m: StockMap)
  {
    exists i :: 0 <= i < |cart| && LineHasProblem(cart[i], m)
  }

  /** `canCheckout`. */
  predicate CanCheckout(cart: Cart, stockLoading: bool, stockFailed: bool, m: StockMap)
  {
    |cart| > 0 && !stockLoading && !stockFailed && !HasStockProblem(cart, m)
  }

  /** `canInc`: the product is known, active, and the cart holds fewer than the stock. */
  predicate CanInc(it: CartLine, m: StockMap)
  {
    it.productId in m && m[it.productId].active && it.qty < m[it.productId].stock
  }

  /** `canDec`: not for a known-inactive product; otherwise only above one. */
  predicate CanDec(it: CartLine, m: StockMap)
  {
    !(it.productId in m && !m[it.productId].active) && it.qty > 1
  }

  datatype Hint = ShowInactive | ShowOutOfStock | ShowOnlyLeft(n: int) | ShowStock(n: int)

  /** `qtyHint`: nothing without metadata, then the first of inactive, out of stock, only N left, stock N. */
  function QtyHint(it: CartLine, m: StockMap): (r: Option<Hint>)
    ensures r.None? <==> it.productId !in m
    ensures r.Some? && r.value.ShowOnlyLeft? ==> r.value.n == m[it.productId].stock < it.qty
    ensures r.Some? && r.value.ShowStock? ==> it.qty <= r.value.n == m[it.productId].stock
  {
    if it.productId !in m then None
    else
      var meta := m[it.productId];
      if !meta.active then Some(ShowInactive)
      else if meta.stock <= 0 then Some(ShowOutOfStock)
      else if it.qty > meta.stock then Some(ShowOnlyLeft(meta.stock))
      else Some(ShowStock(meta.stock))
  }

  /** With positive quantities, the drawer and the checkout page agree on a single line. */
  lemma LineProblemAgrees(it: CartLine, m: StockMap)
    requires it.qty >= 1
    ensures LineHasProblem(it, m) <==> ProblemFor(it, m).Some?
  {
  }

  /** With positive quantities, `hasStockProblem` holds exactly when the checkout page lists a problem. */
  lemma HasProblemIffProblems(cart: Cart, m: StockMap)
    requires PositiveQty(cart)
    ensures HasStockProblem(cart, m) <==> |StockProblems(cart, m)| > 0
  {
    if HasStockProblem(cart, m) {
      var i :| 0 <= i < |cart| && LineHasProblem(cart[i], m);
      LineProblemAgrees(cart[i], m);
    } else {
      forall i | 0 <= i < |cart|
        ensures ProblemFor(cart[i], m).None?
      {
        LineProblemAgrees(cart[i], m);
      }
    }
  }

  /** The drawer's checkout button and the checkout page's gate agree when no order is being placed. */
  lemma CanCheckoutAgrees(cart: Cart, stockLoading: bool, stockFailed: bool, m: StockMap)
    requires PositiveQty(cart)
    ensures CanCheckout(cart, stockLoading, stockFailed, m) <==> CanPlaceOrder(cart, false, stockLoading, stockFailed, m)
  {
    HasProblemIffProblems(cart, m);
  }

  /** The hint names a problem exactly when the line has one, with the same kind. */
  lemma HintMatchesProblem(it: CartLine, m: StockMap)
    requires it.qty >= 1
    ensures QtyHint(it, m) == Some(ShowInactive) <==> ProblemFor(it, m).Some? && ProblemFor(it, m).value.kind == ProductInactive
    ensures QtyHint(it, m) == Some(ShowOutOfStock) <==> ProblemFor(it, m).Some? && ProblemFor(it, m).value.kind == OutOfStock
    ensures (QtyHint(it, m).Some? && QtyHint(it, m).value.ShowOnlyLeft?)
            <==> (ProblemFor(it, m).Some? && ProblemFor(it, m).value.kind.OnlyLeft?)
    ensures (QtyHint(it, m).Some? && QtyHint(it, m).value.ShowStock?) <==> (it.productId in m && ProblemFor(it, m).None?)
  {
  }

  /** An increment the drawer allows never creates a problem on that line. */
  lemma IncKeepsLineClear(cart: Cart, m: StockMap, k: int)
    requires 0 <= k < |cart| && CanInc(cart[k], m)
    ensures |Inc(cart, cart[k].productId)| == |cart|
    ensures !LineHasProblem(Inc(cart, cart[k].productId)[k], m)
    ensures Inc(cart, cart[k].productId)[k].qty == cart[k].qty + 1
  {
  }

  /** A decrement the drawer allows lowers that line by exactly one. */
  lemma DecByOne(cart: Cart, m: StockMap, k: int)
    requires PositiveQty(cart)
    requires 0 <= k < |cart| && CanDec(cart[k], m)
    ensures Dec(cart, cart[k].productId)[k].qty == cart[k].qty - 1
  {
  }
}

=== FILE: checkout.dfy ===
/**
 * `CheckoutController::store` as a state transformer: a catalogue and a
 * request in, either a typed rejection or a new order together with the
 * decremented catalogue out. Also the `showMine` ownership check.
 */
module Checkout {
  import opened Wrappers
  import opened Text
  import opened Store
  import Shipping

  datatype CheckoutError =
    | ValidationFailed
    | ProductNotFound(productId: ProductId)
    | ProductInactive(productId: ProductId)
    | InsufficientStock(productId: ProductId, available: int)

  datatype Request = Request(customer: Customer, lines: seq<Line>)

  /** A created order and the catalogue after the stock decrement. */
  datatype Placed = Placed(order: Order, catalog: Catalog)

  const FreeShippingThreshold := 1_000_000
  const DefaultFee := 60000
  const CapitalFee := 30000
  /** The Persian spelling of Tehran. */
  const CapitalPersian := "\U{062A}\U{0647}\U{0631}\U{0627}\U{0646}"
  const CapitalLatin := "tehran"

  /** Laravel's `required` on a string: some character is not white space. */
  predicate Filled(s: string)
    decreases |s|
  {
    |s| > 0 && (!IsSpace(s[0]) || Filled(s[1..]))
  }

  /** `required` fails exactly the strings that PHP's `trim` empties. */
  lemma {:induction false} FilledIffTrimmed(s: string)
    ensures Filled(s) <==> Trim(s) != ""
    decreases |s|
  {
    TrimEmptyIffAllWhite(Php, s);
    if |s| > 0 {
      FilledIffTrimmed(s[1..]);
      TrimEmptyIffAllWhite(Php, s[1..]);
      assert forall i :: 1 <= i < |s| ==> s[1..][i - 1] == s[i];
    }
  }

  /** The request validation rules for the customer fields. */
  predicate CustomerValid(c: Customer)
  {
    && Filled(c.name) && |c.name| <= 255
    && Filled(c.email) && |c.email| <= 255
    && (c.phone.Some? ==> |c.phone.value| <= 50)
    && Filled(c.address) && |c.address| <= 2000
    && Filled(c.city) && |c.city| <= 255
  }

  /** `items` is a non-empty array of existing products with qty >= 1. */
  predicate LinesValid(cat: Catalog, lines: seq<Line>)
  {
    && |lines| > 0
    && forall i :: 0 <= i < |lines| ==> lines[i].productId in cat && lines[i].qty >= 1
  }

  predicate RequestValid(cat: Catalog, req: Request)
  {
    CustomerValid(req.customer) && LinesValid(cat, req.lines)
  }

  /** The checks made for one line inside the transaction, in source order. */
  function LineCheck(cat: Catalog, line: Line): Option<CheckoutError>
  {
    var pid := line.productId;
    if pid !in cat then Some(ProductNotFound(pid))
    else if !cat[pid].active then Some(ProductInactive(pid))
    else if cat[pid].stock < line.qty then Some(InsufficientStock(pid, cat[pid].stock))
    else None
  }

  /** The loop stops at the first line that fails a check. */
  function FirstLineError(cat: Catalog, lines: seq<Line>): (r: Option<CheckoutError>)
    ensures r.None? <==> forall i :: 0 <= i < |lines| ==> LineCheck(cat, lines[i]).None?
    ensures r.Some? ==> (exists i :: 0 <= i < |lines| && r == LineCheck(cat, lines[i])
                                && forall j :: 0 <= j < i ==> LineCheck(cat, lines[j]).None?)
    ensures r.Some? && r.value.ProductInactive? ==>
      var pid := r.value.productId;
      pid in cat && !cat[pid].active && exists i :: 0 <= i < |lines| && lines[i].productId == pid
    ensures r.Some? && r.value.InsufficientStock? ==>
      var pid := r.value.productId;
      && pid in cat && cat[pid].active && r.value.available == cat[pid].stock
      && exists i :: 0 <= i < |lines| && lines[i].productId == pid && cat[pid].stock < lines[i].qty
    decreases |lines|
  {
    if |lines| == 0 then None
    else if LineCheck(cat, lines[0]).Some? then LineCheck(cat, lines[0])
    else
      var r := FirstLineError(cat, lines[1..]);
      assert forall i :: 1 <= i < |lines| ==> lines[i] == lines[1..][i - 1];
      r
  }

  function Snapshot(cat: Catalog, line: Line): OrderItem
    requires line.productId in cat
  {
    var p := cat[line.productId];
    OrderItem(Some(line.productId), p.title, p.price, line.qty, p.price * line.qty)
  }

  function Snapshots(cat: Catalog, lines: seq<Line>): (r: seq<OrderItem>)
    requires forall i :: 0 <= i < |lines| ==> lines[i].productId in cat
    ensures |r| == |lines|
    ensures forall i :: 0 <= i < |lines| ==> r[i] == Snapshot(cat, lines[i])
  {
    seq(|lines|, i requires 0 <= i < |lines| => Snapshot(cat, lines[i]))
  }

  /** Sum of the item subtotals. */
  function ItemsSubtotal(items: seq<OrderItem>): int
  {
    if |items| == 0 then 0 else ItemsSubtotal(items[..|items| - 1]) + items[|items| - 1].subtotal
  }

  /** The fee rule written inline in the controller. */
  function ShippingFee(city: string, subtotal: int): (fee: int)
    ensures fee in {0, CapitalFee, DefaultFee}
    ensures subtotal >= FreeShippingThreshold ==> fee == 0
    ensures subtotal < FreeShippingThreshold ==>
      (fee == CapitalFee <==> Norm(city) in {CapitalPersian, CapitalLatin})
    ensures subtotal < FreeShippingThreshold && Norm(city) !in {CapitalPersian, CapitalLatin} ==>
      fee == DefaultFee
  {
    var c := Norm(city);
    var fee0 := DefaultFee;
    var fee1 := if c == CapitalPersian || c == CapitalLatin then CapitalFee else fee0;
    if subtotal >= FreeShippingThreshold then 0 else fee1
  }

  /** `"ORD-" . date('Y') . "-" . str_pad(id, 6, "0", STR_PAD_LEFT)`. */
  function OrderCode(year: nat, id: nat): string
  {
    "ORD-" + PadLeft(NatToDigits(year), 4, '0') + "-" + PadLeft(NatToDigits(id), 6, '0')
  }

  /** Position of the first `c` in `s`. */
  function IndexOf(s: string, c: char): (r: Option<nat>)
    ensures r.Some? ==> (r.value < |s| && s[r.value] == c
                         && forall j :: 0 <= j < r.value ==> s[j] != c)
    ensures r.None? ==> forall j :: 0 <= j < |s| ==> s[j] != c
  {
    if |s| == 0 then None
    else if s[0] == c then Some(0)
    else match IndexOf(s[1..], c)
      case Some(k) => Some(k + 1)
      case None => None
  }

  /** Reads the year and the order id back out of an order code. */
  function ParseOrderCode(code: string): Option<(nat, nat)>
  {
    if |code| < 4 || code[..4] != "ORD-" then None
    else
      var rest := code[4..];
      match IndexOf(rest, '-')
      case None => None
      case Some(k) =>
        var y := rest[..k];
        var n := rest[k + 1..];
        if |y| > 0 && |n| > 0 && IsDigits(y) && IsDigits(n)
        then Some((DigitsToNat(y), DigitsToNat(n)))
        else None
  }

  /**
   * What the created order holds: the given ids, status `pending`, the
   * order code, the customer fields as sent with the city trimmed, one item
   * per line priced from the catalogue, and totals from the inline fee rule.
   */
  predicate OrderFromRequest(o: Order, cat: Catalog, req: Request, userId: nat, orderId: nat, year: nat)
  {
    && o.id == orderId && o.userId == userId
    && o.status == "pending"
    && o.code == OrderCode(year, orderId)
    && o.total == o.subtotal + o.shippingFee
    && o.subtotal == ItemsSubtotal(o.items)
    && o.shippingFee == ShippingFee(req.customer.city, o.subtotal)
    && o.tracking.None? && o.shippingMethod.None?
    && o.customer == req.customer.(city := Trim(req.customer.city))
    && |o.items| == |req.lines|
    && (forall i :: 0 <= i < |o.items| ==>
          var it := o.items[i];
          var pid := req.lines[i].productId;
          && it.productId == Some(pid)
          && pid in cat
          && it.unitPrice == cat[pid].price && it.title == cat[pid].title
          && it.qty == req.lines[i].qty
          && it.subtotal == it.unitPrice * it.qty)
  }

  /**
   * The transaction once every line has passed its checks: the created
   * order, and the catalogue with each line's qty taken off its product.
   */
  function Commit(cat: Catalog, req: Request, userId: nat, orderId: nat, year: nat): (p: Placed)
    requires forall i :: 0 <= i < |req.lines| ==> req.lines[i].productId in cat
    ensures OrderFromRequest(p.order, cat, req, userId, orderId, year)
    ensures p.catalog.Keys == cat.Keys
    ensures forall q :: q in cat ==> p.catalog[q] == cat[q].(stock := cat[q].stock - LineQty(req.lines, q))
  {
    var items := Snapshots(cat, req.lines);
    var subtotal := ItemsSubtotal(items);
    var fee := ShippingFee(req.customer.city, subtotal);
    var order := Order(
      orderId, userId, OrderCode(year, orderId), "pending",
      subtotal, fee, subtotal + fee,
      req.customer.(city := Trim(req.customer.city)),
      None, None, items);
    Placed(order, Decrement(cat, req.lines))
  }

  /**
   * The controller's transaction: check every line against the stock loaded
   * before the loop, price the lines, apply the fee rule, create the order,
   * then decrement stock once per line.
   */
  function PlaceOrder(cat: Catalog, req: Request, userId: nat, orderId: nat, year: nat)
    : (r: Result<Placed, CheckoutError>)
    ensures r.Ok? <==> (RequestValid(cat, req)
                        && forall i :: 0 <= i < |req.lines| ==> LineCheck(cat, req.lines[i]).None?)
    ensures !RequestValid(cat, req) ==> r == Err(ValidationFailed)
    ensures RequestValid(cat, req) && r.Err? ==> Some(r.error) == FirstLineError(cat, req.lines)
    ensures r.Err? && r.error.ProductInactive? ==>
      var pid := r.error.productId;
      pid in cat && !cat[pid].active && exists i :: 0 <= i < |req.lines| && req.lines[i].productId == pid
    ensures r.Err? && r.error.InsufficientStock? ==>
      var pid := r.error.productId;
      && pid in cat && cat[pid].active && r.error.available == cat[pid].stock
      && exists i :: 0 <= i < |req.lines| && req.lines[i].productId == pid && cat[pid].stock < req.lines[i].qty
    ensures r.Ok? ==> OrderFromRequest(r.value.order, cat, req, userId, orderId, year)
    ensures r.Ok? ==>
      var c' := r.value.catalog;
      && c'.Keys == cat.Keys
      && forall p :: p in cat ==> c'[p] == cat[p].(stock := cat[p].stock - LineQty(req.lines, p))
  {
    if !RequestValid(cat, req) then Err(ValidationFailed)
    else match FirstLineError(cat, req.lines)
      case Some(e) => Err(e)
      case None => Ok(Commit(cat, req, userId, orderId, year))
  }

  /** The two fee rules differ only for the Persian spelling below the free threshold. */
  lemma FeeRulesAgree(city: string, subtotal: int)
    ensures Shipping.Calculate(city, subtotal).fee == ShippingFee(city, subtotal)
      <==> !(subtotal < FreeShippingThreshold && Norm(city) == CapitalPersian)
  {
  }

  lemma PaddedDigits(n: nat, width: nat)
    ensures |PadLeft(NatToDigits(n), width, '0')| > 0
    ensures IsDigits(PadLeft(NatToDigits(n), width, '0'))
    ensures DigitsToNat(PadLeft(NatToDigits(n), width, '0')) == n
  {
    var d := NatToDigits(n);
    DigitsRoundTrip(n);
    if |d| < width {
      LeadingZeros(width - |d|, d);
    }
  }

  lemma {:induction false} DashAfterDigits(y: string, n: string)
    requires IsDigits(y)
    ensures IndexOf(y + "-" + n, '-') == Some(|y|)
    decreases |y|
  {
    if |y| > 0 {
      assert (y + "-" + n)[1..] == y[1..] + "-" + n;
      DashAfterDigits(y[1..], n);
    }
  }

  lemma ParseComposed(y: string, n: string)
    requires |y| > 0 && |n| > 0 && IsDigits(y) && IsDigits(n)
    ensures ParseOrderCode("ORD-" + y + "-" + n) == Some((DigitsToNat(y), DigitsToNat(n)))
  {
    var code := "ORD-" + y + "-" + n;
    var rest := y + "-" + n;
    assert code[..4] == "ORD-";
    assert code[4..] == rest;
    DashAfterDigits(y, n);
    assert rest[..|y|] == y;
    assert rest[|y| + 1..] == n;
  }

  /** The order code determines the year and the order id it was built from. */
  lemma OrderCodeRoundTrip(year: nat, id: nat)
    ensures ParseOrderCode(OrderCode(year, id)) == Some((year, id))
  {
    PaddedDigits(year, 4);
    PaddedDigits(id, 6);
    ParseComposed(PadLeft(NatToDigits(year), 4, '0'), PadLeft(NatToDigits(id), 6, '0'));
  }

  /** The id part of the code is at least six digits wide. */
  lemma OrderCodeShape(year: nat, id: nat)
    ensures |OrderCode(year, id)| >= 4 + 4 + 1 + 6
    ensures OrderCode(year, id)[..4] == "ORD-"
  {
  }

  /**
   * When no product appears on two lines, an accepted checkout never takes
   * a product's stock below zero.
   */
  lemma {:induction false} DistinctLinesKeepStock(
    cat: Catalog, req: Request, userId: nat, orderId: nat, year: nat, p: ProductId)
    requires DistinctProducts(req.lines)
    requires PlaceOrder(cat, req, userId, orderId, year).Ok?
    requires p in cat
    ensures (exists i :: 0 <= i < |req.lines| && req.lines[i].productId == p) ==>
      PlaceOrder(cat, req, userId, orderId, year).value.catalog[p].stock >= 0
    ensures cat[p].stock >= 0 ==> PlaceOrder(cat, req, userId, orderId, year).value.catalog[p].stock >= 0
  {
    var lines := req.lines;
    if i :| 0 <= i < |lines| && lines[i].productId == p {
      LineQtyDistinct(lines, i);
      assert LineCheck(cat, lines[i]).None?;
    } else {
      LineQtyAbsent(lines, p);
    }
  }

  /** The sample customer of the example below passes validation. */
  lemma SampleCustomerValid()
    ensures CustomerValid(Customer("Ana", "ana@example.com", None, "Main St 1", "Shiraz"))
  {
    assert Filled("Ana") by { assert !IsSpace("Ana"[0]); }
    assert Filled("ana@example.com") by { assert !IsSpace("ana@example.com"[0]); }
    assert Filled("Main St 1") by { assert !IsSpace("Main St 1"[0]); }
    assert Filled("Shiraz") by { assert !IsSpace("Shiraz"[0]); }
  }

  /**
   * Two lines for the same product are each checked against the stock read
   * before the loop, but both are decremented: one unit in stock, two lines
   * of qty 1, and the order is accepted with stock left at -1.
   */
  lemma DuplicateLinesOverdraw()
    ensures
      var cat := map[7 := Product("mug", 100, 1, true)];
      var cust := Customer("Ana", "ana@example.com", None, "Main St 1", "Shiraz");
      var req := Request(cust, [Line(7, 1), Line(7, 1)]);
      var r := PlaceOrder(cat, req, 1, 42, 2026);
      r.Ok? && r.value.catalog[7].stock == -1
  {
    var cat := map[7 := Product("mug", 100, 1, true)];
    var cust := Customer("Ana", "ana@example.com", None, "Main St 1", "Shiraz");
    var req := Request(cust, [Line(7, 1), Line(7, 1)]);
    SampleCustomerValid();
    assert RequestValid(cat, req);
    assert LineCheck(cat, req.lines[0]).None?;
    assert LineCheck(cat, req.lines[1]).None?;
    assert LineQty(req.lines, 7) == 2;
  }

  datatype AccessError = Forbidden

  /** `showMine`: only the order's owner may read it. */
  function ShowMine(o: Order, requester: nat): (r: Result<Order, AccessError>)
    ensures r.Ok? <==> o.userId == requester
    ensures r.Ok? ==> r.value == o
  {
    if o.userId != requester then Err(Forbidden) else Ok(o)
  }

  /** An order that `store` accepted is shown to the user who placed it and to nobody else. */
  lemma PlacedOrderShownOnlyToPlacer(cat: Catalog, req: Request, userId: nat, orderId: nat, year: nat, requester: nat)
    requires PlaceOrder(cat, req, userId, orderId, year).Ok?
    ensures ShowMine(PlaceOrder(cat, req, userId, orderId, year).value.order, requester).Ok? <==> requester == userId
    ensures ShowMine(PlaceOrder(cat, req, userId, orderId, year).value.order, requester).Err? ==>
      ShowMine(PlaceOrder(cat, req, userId, orderId, year).value.order, requester).error == Forbidden
  {
  }
}

=== FILE: checkout_page.dfy ===
/**
 * The checkout page: the stock map fetched for the cart's products, the
 * per-item stock problems, the place-order gate, the previews, and the
 * payload sent to the server.
 */
module CheckoutPage {
  import opened Wrappers
  import opened Text
  import opened Store
  import Cart
  import Checkout

  /** What the page knows about one product: `{ stock, is_active }`. */
  datatype StockMeta = StockMeta(stock: int, active: bool)

  type StockMap = map<int, StockMeta>

  /** The stock map the page builds from a fresh answer about every product of `cat`. */
  function StockView(cat: Catalog): (m: StockMap)
    ensures forall p: int :: p in m <==> p >= 0 && p in cat
    ensures forall p: ProductId :: p in cat ==> m[p] == StockMeta(cat[p].stock, cat[p].active)
  {
    map p: ProductId | p in cat :: StockMeta(cat[p].stock, cat[p].active)
  }

  datatype ProblemKind = ProductInactive | OutOfStock | OnlyLeft(available: int)

  datatype Problem = Problem(productId: int, title: string, kind: ProblemKind)

  /**
   * The problem reported for one item, if any: nothing without metadata,
   * then inactive, then out of stock, then fewer in stock than in the cart.
   */
  function ProblemFor(it: Cart.CartLine, m: StockMap): (r: Option<Problem>)
    ensures it.productId !in m ==> r.None?
    ensures r.Some? ==> r.value.productId == it.productId && r.value.title == it.title
    ensures r.None? <==>
      (it.productId !in m
       || (m[it.productId].active && 0 < m[it.productId].stock && it.qty <= m[it.productId].stock))
    ensures r.Some? && r.value.kind == ProductInactive <==> it.productId in m && !m[it.productId].active
    ensures r.Some? && r.value.kind == OutOfStock
            <==> it.productId in m && m[it.productId].active && m[it.productId].stock <= 0
    ensures r.Some? && r.value.kind.OnlyLeft?
            <==> (it.productId in m && m[it.productId].active && 0 < m[it.productId].stock < it.qty)
    ensures r.Some? && r.value.kind.OnlyLeft? ==> r.value.kind.available == m[it.productId].stock
  {
    if it.productId !in m then None
    else
      var meta := m[it.productId];
      if !meta.active then Some(Problem(it.productId, it.title, ProductInactive))
      else if meta.stock <= 0 then Some(Problem(it.productId, it.title, OutOfStock))
      else if it.qty > meta.stock then Some(Problem(it.productId, it.title, OnlyLeft(meta.stock)))
      else None
  }

  /** `stockProblems`: the problems of the cart's items, in cart order. */
  function StockProblems(cart: Cart.Cart, m: StockMap): (r: seq<Problem>)
    ensures |r| <= |cart|
    ensures |r| == 0 <==> forall i :: 0 <= i < |cart| ==> ProblemFor(cart[i], m).None?
    ensures forall k :: 0 <= k < |r| ==> exists i :: 0 <= i < |cart| && ProblemFor(cart[i], m) == Some(r[k])
    ensures forall i :: 0 <= i < |cart| && ProblemFor(cart[i], m).Some? ==> ProblemFor(cart[i], m).value in r
    decreases |cart|
  {
    if |cart| == 0 then []
    else
      var rest := StockProblems(cart[1..], m);
      assert forall i :: 1 <= i < |cart| ==> cart[1..][i - 1] == cart[i];
      match ProblemFor(cart[0], m)
      case Some(p) => [p] + rest
      case None => rest
  }

  /** The problem of one item, as a list of at most one entry. */
  function ProblemList(it: Cart.CartLine, m: StockMap): seq<Problem>
  {
    match ProblemFor(it, m)
    case Some(p) => [p]
    case None => []
  }

  lemma StockProblemsCons(c: Cart.Cart, m: StockMap)
    requires |c| > 0
    ensures StockProblems(c, m) == ProblemList(c[0], m) + StockProblems(c[1..], m)
  {
  }

  /** The list keeps cart order: the problems of a split cart are those of each part, in turn. */
  lemma {:induction false} StockProblemsAppend(a: Cart.Cart, b: Cart.Cart, m: StockMap)
    ensures StockProblems(a + b, m) == StockProblems(a, m) + StockProblems(b, m)
    decreases |a|
  {
    if |a| == 0 {
      assert a + b == b;
    } else {
      var ab := a + b;
      assert ab[0] == a[0];
      assert ab[1..] == a[1..] + b;
      StockProblemsAppend(a[1..], b, m);
      StockProblemsCons(ab, m);
      StockProblemsCons(a, m);
      ConcatAssoc(ProblemList(a[0], m), StockProblems(a[1..], m), StockProblems(b, m));
    }
  }

  lemma ConcatAssoc(x: seq<Problem>, y: seq<Problem>, z: seq<Problem>)
    ensures x + (y + z) == (x + y) + z
  {
  }

  /** `canPlaceOrder`. */
  predicate CanPlaceOrder(cart: Cart.Cart, placing: bool, stockLoading: bool, stockFailed: bool, m: StockMap)
  {
    |cart| > 0 && !placing && !stockLoading && !stockFailed && |StockProblems(cart, m)| == 0
  }

  /** `calcShipping`: the page leaves the fee to the server. */
  function ShippingPreview(city: string, subtotal: int): (fee: int)
    ensures fee == 0
  {
    0
  }

  /** `subtotal`: the sum of price times qty, the cart's own total. */
  function Subtotal(cart: Cart.Cart): (r: int)
    ensures r == Cart.Total(cart)
  {
    if |cart| == 0 then 0 else Cart.LineCost(cart[0]) + Subtotal(cart[1..])
  }

  /** `totalPreview`: subtotal plus the (zero) shipping preview. */
  function TotalPreview(cart: Cart.Cart, city: string): (r: int)
    ensures r == Cart.Total(cart)
  {
    Subtotal(cart) + ShippingPreview(city, Subtotal(cart))
  }

  /** The five customer fields as typed into the form. */
  datatype Form = Form(name: string, email: string, phone: string, city: string, address: string)

  datatype PayloadItem = PayloadItem(productId: int, qty: int)

  datatype Payload = Payload(customer: Customer, items: seq<PayloadItem>)

  /** The customer block of the request: fields trimmed as JavaScript does, the e-mail also lower-cased, a blank phone as null. */
  function FormCustomer(form: Form): (c: Customer)
    ensures c.phone.None? <==> JsTrim(form.phone) == ""
    ensures c.phone.Some? ==> c.phone.value == JsTrim(form.phone)
    ensures c.email == JsNorm(form.email)
    ensures c.name == JsTrim(form.name) && c.city == JsTrim(form.city)
    ensures c.address == JsTrim(form.address)
  {
    var phone := JsTrim(form.phone);
    Customer(JsTrim(form.name), JsNorm(form.email), if phone == "" then None else Some(phone),
             JsTrim(form.address), JsTrim(form.city))
  }

  /**
   * The body of the checkout request: the customer block and the cart's
   * lines reduced to product id and quantity, in cart order.
   */
  function BuildPayload(form: Form, cart: Cart.Cart): (r: Payload)
    ensures r.customer == FormCustomer(form)
    ensures |r.items| == |cart|
    ensures forall i :: 0 <= i < |cart| ==>
      r.items[i].productId == cart[i].productId && r.items[i].qty == cart[i].qty
  {
    Payload(FormCustomer(form),
            seq(|cart|, i requires 0 <= i < |cart| => PayloadItem(cart[i].productId, cart[i].qty)))
  }

  /** The form a payload's customer would fill in again. */
  function Refill(c: Customer): Form
  {
    Form(c.name, c.email, if c.phone.Some? then c.phone.value else "", c.city, c.address)
  }

  /** Sending the customer block's own fields again changes nothing: every field is already normal. */
  lemma PayloadIsNormal(form: Form)
    ensures FormCustomer(Refill(FormCustomer(form))) == FormCustomer(form)
  {
    JsTrimIdempotent(form.name);
    JsTrimIdempotent(form.city);
    JsTrimIdempotent(form.address);
    JsNormIdempotent(form.email);
    PhoneIsNormal(form.phone);
  }

  /** The phone field of a built request, filled in again, gives the same field. */
  lemma PhoneIsNormal(phone: string)
    ensures var t := JsTrim(phone);
            var again := if t == "" then "" else t;
            JsTrim(again) == t
  {
    JsTrimIdempotent(phone);
  }

  /**
   * Against a stock map that reflects the catalogue, the page flags an item
   * exactly when the server would turn its line down for being inactive or
   * short of stock.
   */
  lemma FlagsAgreeWithServer(cat: Catalog, it: Cart.CartLine)
    requires it.productId >= 0 && it.productId in cat && it.qty >= 1
    ensures ProblemFor(it, StockView(cat)).Some?
            <==> Checkout.LineCheck(cat, Line(it.productId, it.qty)).Some?
    ensures ProblemFor(it, StockView(cat)).Some? && ProblemFor(it, StockView(cat)).value.kind == ProductInactive
            <==> Checkout.LineCheck(cat, Line(it.productId, it.qty)) == Some(Checkout.ProductInactive(it.productId))
  {
  }

  /**
   * When the page lets an order through, every cart line whose product the
   * catalogue knows passes the server's per-line check.
   */
  lemma PlaceableLinesPass(cat: Catalog, cart: Cart.Cart, placing: bool, i: int)
    requires CanPlaceOrder(cart, placing, false, false, StockView(cat))
    requires 0 <= i < |cart| && cart[i].productId >= 0 && cart[i].productId in cat
    requires cart[i].qty >= 1
    ensures Checkout.LineCheck(cat, Line(cart[i].productId, cart[i].qty)).None?
  {
    FlagsAgreeWithServer(cat, cart[i]);
  }

  /** The preview never shows the server's fee: for an empty city and subtotal the server charges 60000. */
  lemma PreviewOmitsFee(cart: Cart.Cart)
    ensures ShippingPreview("", Cart.Total(cart)) == 0
    ensures Checkout.ShippingFee("", 0) == Checkout.DefaultFee
  {
    assert Trim("") == "";
    assert Lower("") == "";
  }
}

=== FILE: fulfilment.dfy ===
/**
 * Properties that span checkout and the admin lifecycle: cancellation is
 * the inverse of checkout on stock, `destroy` forfeits that compensation,
 * and no sequence of admin status updates restocks an order twice.
 */
module Fulfilment {
  import opened Wrappers
  import opened Store
  import opened OrderStatus
  import opened Checkout
  import opened AdminOrders

  lemma {:induction false} ItemQtySnapshots(cat: Catalog, lines: seq<Line>, p: ProductId)
    requires forall i :: 0 <= i < |lines| ==> lines[i].productId in cat
    ensures ItemQty(Snapshots(cat, lines), p) == LineQty(lines, p)
    decreases |lines|
  {
    if |lines| > 0 {
      assert Snapshots(cat, lines)[1..] == Snapshots(cat, lines[1..]);
      ItemQtySnapshots(cat, lines[1..], p);
    }
  }

  /** A placed order holds, per product, exactly the quantity its request asked for. */
  lemma PlacedItemsMatchLines(cat: Catalog, req: Request, userId: nat, orderId: nat, year: nat, p: ProductId)
    requires PlaceOrder(cat, req, userId, orderId, year).Ok?
    ensures ItemQty(PlaceOrder(cat, req, userId, orderId, year).value.order.items, p) == LineQty(req.lines, p)
  {
    ItemQtySnapshots(cat, req.lines, p);
  }

  /** Cancelling an order adds back what was taken for its items. */
  lemma CancelRestoresTakenStock(o: Order, before: Catalog, after: Catalog)
    requires CanTransition(o.status, "cancelled") && o.status != "cancelled"
    requires after.Keys == before.Keys
    requires forall p :: p in before ==>
      after[p] == before[p].(stock := before[p].stock - ItemQty(o.items, p))
    ensures UpdateStatus(o, after, "cancelled") == Ok(Updated(o.(status := "cancelled"), before))
  {
    CancelAppliesRestock(o, after);
    RestockUndoesTake(o.items, before, after);
  }

  /**
   * Cancelling a freshly placed order gives back exactly the catalogue the
   * checkout started from.
   */
  lemma CancelUndoesCheckout(cat: Catalog, req: Request, userId: nat, orderId: nat, year: nat)
    requires PlaceOrder(cat, req, userId, orderId, year).Ok?
    ensures
      var placed := PlaceOrder(cat, req, userId, orderId, year).value;
      UpdateStatus(placed.order, placed.catalog, "cancelled")
        == Ok(Updated(placed.order.(status := "cancelled"), cat))
  {
    var placed := PlaceOrder(cat, req, userId, orderId, year).value;
    forall p | p in cat
      ensures placed.catalog[p] == cat[p].(stock := cat[p].stock - ItemQty(placed.order.items, p))
    {
      PlacedItemsMatchLines(cat, req, userId, orderId, year, p);
    }
    CancellableStatuses(placed.order);
    CancelRestoresTakenStock(placed.order, cat, placed.catalog);
  }

  /**
   * `destroy` cancels without restocking, after which the regular cancel is
   * a no-op: the stock taken by the checkout is never given back.
   */
  lemma DestroyForfeitsRestock(cat: Catalog, req: Request, userId: nat, orderId: nat, year: nat, p: ProductId)
    requires PlaceOrder(cat, req, userId, orderId, year).Ok?
    requires p in cat
    ensures
      var placed := PlaceOrder(cat, req, userId, orderId, year).value;
      var gone := Destroy(placed.order);
      && UpdateStatus(gone, placed.catalog, "cancelled") == Ok(Updated(gone, placed.catalog))
      && placed.catalog[p].stock == cat[p].stock - LineQty(req.lines, p)
  {
    var placed := PlaceOrder(cat, req, userId, orderId, year).value;
    ReCancelIsNoOp(Destroy(placed.order), placed.catalog);
  }

  /** Apply a sequence of admin status requests, ignoring the refused ones. */
  function ApplyUpdates(o: Order, cat: Catalog, targets: seq<string>): Updated
    decreases |targets|
  {
    if |targets| == 0 then Updated(o, cat)
    else match UpdateStatus(o, cat, targets[0])
      case Ok(u) => ApplyUpdates(u.order, u.catalog, targets[1..])
      case Err(_) => ApplyUpdates(o, cat, targets[1..])
  }

  /**
   * Whatever admin requests arrive, an order's items are restocked at most
   * once: the catalogue ends restocked exactly when the order ends
   * cancelled, and a cancelled order stays cancelled.
   */
  lemma {:induction false} RestockAtMostOnce(o: Order, cat: Catalog, targets: seq<string>)
    requires Parse(o.status).Some?
    ensures
      var u := ApplyUpdates(o, cat, targets);
      && u.order.items == o.items
      && Parse(u.order.status).Some?
      && (o.status == "cancelled" ==> u.order.status == "cancelled" && u.catalog == cat)
      && (o.status != "cancelled" ==>
            u.catalog == if u.order.status == "cancelled" then Restock(cat, o.items) else cat)
    decreases |targets|
  {
    if |targets| > 0 {
      var to := targets[0];
      match UpdateStatus(o, cat, to)
      case Ok(v) =>
        if o.status == "cancelled" {
          if to != "cancelled" {
            CancelledIsTerminal(o, cat, to);
          }
          RestockAtMostOnce(v.order, v.catalog, targets[1..]);
        } else {
          RestockAtMostOnce(v.order, v.catalog, targets[1..]);
        }
      case Err(_) =>
        RestockAtMostOnce(o, cat, targets[1..]);
    }
  }
}

=== FILE: merged_checkout.dfy ===
/**
 * Checkout with duplicate product lines merged first, so that each product
 * is checked once against the total quantity requested of it. This is the
 * corrected counterpart of `Checkout.PlaceOrder`, whose per-line check lets
 * duplicate lines overdraw stock (`Checkout.DuplicateLinesOverdraw`).
 */
module MergedCheckout {
  import opened Wrappers
  import opened Store
  import opened Checkout

  function ProductIds(lines: seq<Line>): set<ProductId>
  {
    set i | 0 <= i < |lines| :: lines[i].productId
  }

  function IndexOfProduct(acc: seq<Line>, pid: ProductId): (r: Option<nat>)
    ensures r.Some? ==> r.value < |acc| && acc[r.value].productId == pid
    ensures r.None? ==> forall j :: 0 <= j < |acc| ==> acc[j].productId != pid
  {
    if |acc| == 0 then None
    else if acc[0].productId == pid then Some(0)
    else match IndexOfProduct(acc[1..], pid)
      case Some(k) => Some(k + 1)
      case None => None
  }

  /** Fold one line into already-merged lines. */
  function MergeLine(acc: seq<Line>, l: Line): seq<Line>
  {
    match IndexOfProduct(acc, l.productId)
    case Some(j) => acc[j := Line(l.productId, acc[j].qty + l.qty)]
    case None => acc + [l]
  }

  lemma {:induction false} LineQtyUpdate(acc: seq<Line>, j: nat, l: Line, p: ProductId)
    requires j < |acc|
    ensures LineQty(acc[j := l], p) == LineQty(acc, p)
      - (if acc[j].productId == p then acc[j].qty else 0)
      + (if l.productId == p then l.qty else 0)
    decreases |acc|
  {
    if j > 0 {
      assert acc[j := l][1..] == acc[1..][j - 1 := l];
      LineQtyUpdate(acc[1..], j - 1, l, p);
    }
  }

  lemma MergeLineFacts(acc: seq<Line>, l: Line)
    requires DistinctProducts(acc)
    ensures DistinctProducts(MergeLine(acc, l))
    ensures ProductIds(MergeLine(acc, l)) == ProductIds(acc) + {l.productId}
    ensures |MergeLine(acc, l)| > 0
    ensures forall p ::
      LineQty(MergeLine(acc, l), p) == LineQty(acc, p) + (if l.productId == p then l.qty else 0)
    ensures (forall i :: 0 <= i < |acc| ==> acc[i].qty >= 1) && l.qty >= 1 ==>
      forall i :: 0 <= i < |MergeLine(acc, l)| ==> MergeLine(acc, l)[i].qty >= 1
  {
    var r := MergeLine(acc, l);
    match IndexOfProduct(acc, l.productId)
    case Some(j) =>
      var nl := Line(l.productId, acc[j].qty + l.qty);
      forall p
        ensures LineQty(r, p) == LineQty(acc, p) + (if l.productId == p then l.qty else 0)
      {
        LineQtyUpdate(acc, j, nl, p);
      }
      assert ProductIds(r) == ProductIds(acc) by {
        forall q | q in ProductIds(acc) ensures q in ProductIds(r) {
          var i :| 0 <= i < |acc| && acc[i].productId == q;
          assert r[i].productId == q;
        }
      }
    case None =>
      forall p
        ensures LineQty(r, p) == LineQty(acc, p) + (if l.productId == p then l.qty else 0)
      {
        LineQtyAppend(acc, [l], p);
      }
      assert r[|acc|].productId == l.productId;
      assert ProductIds(r) == ProductIds(acc) + {l.productId} by {
        forall q | q in ProductIds(acc) ensures q in ProductIds(r) {
          var i :| 0 <= i < |acc| && acc[i].productId == q;
          assert r[i].productId == q;
        }
      }
  }

  /** Merge lines by product id, summing quantities, keeping first-seen order. */
  function Merge(lines: seq<Line>): (r: seq<Line>)
    ensures DistinctProducts(r)
    ensures ProductIds(r) == ProductIds(lines)
    ensures |r| > 0 <==> |lines| > 0
    ensures forall p :: LineQty(r, p) == LineQty(lines, p)
    ensures (forall i :: 0 <= i < |lines| ==> lines[i].qty >= 1) ==>
      forall i :: 0 <= i < |r| ==> r[i].qty >= 1
    decreases |lines|
  {
    if |lines| == 0 then []
    else
      var front := lines[..|lines| - 1];
      var last := lines[|lines| - 1];
      var acc := Merge(front);
      MergeLineFacts(acc, last);
      assert lines == front + [last];
      forall p ensures LineQty(lines, p) == LineQty(front, p) + (if last.productId == p then last.qty else 0) {
        LineQtyAppend(front, [last], p);
      }
      assert ProductIds(lines) == ProductIds(front) + {last.productId} by {
        forall q | q in ProductIds(lines) ensures q in ProductIds(front) + {last.productId} {
          var i :| 0 <= i < |lines| && lines[i].productId == q;
          if i < |lines| - 1 { assert front[i] == lines[i]; }
        }
      }
      MergeLine(acc, last)
  }

  /** Merging keeps a valid request valid. */
  lemma LinesValidMerged(cat: Catalog, lines: seq<Line>)
    requires LinesValid(cat, lines)
    ensures LinesValid(cat, Merge(lines))
  {
    var m := Merge(lines);
    forall i | 0 <= i < |m| ensures m[i].productId in cat {
      assert m[i].productId in ProductIds(lines);
    }
  }

  /**
   * Validate the request as submitted, then merge its lines and run the
   * checkout on the merged lines.
   */
  function PlaceMergedOrder(cat: Catalog, req: Request, userId: nat, orderId: nat, year: nat)
    : (r: Result<Placed, CheckoutError>)
  {
    if !RequestValid(cat, req) then Err(ValidationFailed)
    else PlaceOrder(cat, req.(lines := Merge(req.lines)), userId, orderId, year)
  }

  /**
   * The merged checkout accepts exactly when every requested product is
   * active and has at least the total quantity requested of it.
   */
  lemma MergedAcceptsIff(cat: Catalog, req: Request, userId: nat, orderId: nat, year: nat)
    ensures PlaceMergedOrder(cat, req, userId, orderId, year).Ok? <==>
      && RequestValid(cat, req)
      && forall p :: p in ProductIds(req.lines) ==>
           p in cat && cat[p].active && LineQty(req.lines, p) <= cat[p].stock
  {
    if RequestValid(cat, req) {
      var m := Merge(req.lines);
      LinesValidMerged(cat, req.lines);
      assert RequestValid(cat, req.(lines := m));
      var perLine := forall i :: 0 <= i < |m| ==> LineCheck(cat, m[i]).None?;
      var perProduct := forall p :: p in ProductIds(req.lines) ==>
        p in cat && cat[p].active && LineQty(req.lines, p) <= cat[p].stock;
      if perLine {
        forall p | p in ProductIds(req.lines)
          ensures p in cat && cat[p].active && LineQty(req.lines, p) <= cat[p].stock
        {
          assert p in ProductIds(m);
          var i :| 0 <= i < |m| && m[i].productId == p;
          LineQtyDistinct(m, i);
          assert LineCheck(cat, m[i]).None?;
        }
      }
      if perProduct {
        forall i | 0 <= i < |m| ensures LineCheck(cat, m[i]).None? {
          var p := m[i].productId;
          assert p in ProductIds(m);
          LineQtyDistinct(m, i);
        }
      }
    }
  }

  /**
   * After an accepted merged checkout every product's stock is reduced by
   * the total quantity ordered of it and no stock is taken below zero.
   */
  lemma MergedKeepsStock(cat: Catalog, req: Request, userId: nat, orderId: nat, year: nat, p: ProductId)
    requires PlaceMergedOrder(cat, req, userId, orderId, year).Ok?
    requires p in cat
    ensures PlaceMergedOrder(cat, req, userId, orderId, year).value.catalog[p].stock
      == cat[p].stock - LineQty(req.lines, p)
    ensures cat[p].stock >= 0 ==> PlaceMergedOrder(cat, req, userId, orderId, year).value.catalog[p].stock >= 0
  {
    var m := Merge(req.lines);
    DistinctLinesKeepStock(cat, req.(lines := m), userId, orderId, year, p);
  }
}

=== FILE: order_status.dfy ===
/**
 * The order lifecycle of the `Order` model: the five status names, the
 * transition table and the transition predicate. Statuses travel as raw
 * strings (they are stored and requested that way), so the predicate is
 * stated over strings and normalises both sides first.
 */
module OrderStatus {
  import opened Wrappers
  import opened Text

  datatype Status = Pending | Confirmed | Shipped | Delivered | Cancelled

  function Name(s: Status): string
  {
    match s
    case Pending => "pending"
    case Confirmed => "confirmed"
    case Shipped => "shipped"
    case Delivered => "delivered"
    case Cancelled => "cancelled"
  }

  /** `allowedStatuses`, in declaration order. */
  const AllowedStatuses: seq<Status> := [Pending, Confirmed, Shipped, Delivered, Cancelled]

  function Names(ss: seq<Status>): (r: seq<string>)
    ensures |r| == |ss|
    ensures forall i :: 0 <= i < |ss| ==> r[i] == Name(ss[i])
  {
    if |ss| == 0 then [] else [Name(ss[0])] + Names(ss[1..])
  }

  function AllowedNames(): seq<string>
  {
    Names(AllowedStatuses)
  }

  /** Exact (case-sensitive) lookup of a status name. */
  function Parse(name: string): (r: Option<Status>)
    ensures r.Some? ==> Name(r.value) == name
    ensures r.None? ==> forall s: Status :: Name(s) != name
  {
    if name == "pending" then Some(Pending)
    else if name == "confirmed" then Some(Confirmed)
    else if name == "shipped" then Some(Shipped)
    else if name == "delivered" then Some(Delivered)
    else if name == "cancelled" then Some(Cancelled)
    else None
  }

  /** `transitionFlow`: the successors of each status, self excluded. */
  function Flow(s: Status): seq<Status>
  {
    match s
    case Pending => [Confirmed, Cancelled]
    case Confirmed => [Shipped, Cancelled]
    case Shipped => [Delivered, Cancelled]
    case Delivered => []
    case Cancelled => []
  }

  /** `transitionFlow()[key] ?? []`: an unknown key has no successors. */
  function AllowedNext(key: string): seq<string>
  {
    match Parse(key)
    case Some(s) => Names(Flow(s))
    case None => []
  }

  /** `canTransition`: equal after normalisation, or listed in the flow. */
  predicate CanTransition(from: string, to: string)
  {
    var f := Norm(from);
    var t := Norm(to);
    f == t || t in AllowedNext(f)
  }

  /** The five names parse to their statuses. */
  lemma KnownNames()
    ensures Parse("pending") == Some(Pending)
    ensures Parse("confirmed") == Some(Confirmed)
    ensures Parse("shipped") == Some(Shipped)
    ensures Parse("delivered") == Some(Delivered)
    ensures Parse("cancelled") == Some(Cancelled)
  {
  }

  /** Parsing a status's name gives the status back. */
  lemma ParseName(s: Status)
    ensures Parse(Name(s)) == Some(s)
  {
    KnownNames();
  }

  lemma NameInjective(a: Status, b: Status)
    ensures Name(a) == Name(b) <==> a == b
  {
  }

  /** Every status name is already in normal form. */
  lemma NameIsNormal(s: Status)
    ensures Norm(Name(s)) == Name(s)
  {
    assert IsLowerWord(Name(s)) by {
      match s
      case Pending => assert IsLowerWord("pending");
      case Confirmed => assert IsLowerWord("confirmed");
      case Shipped => assert IsLowerWord("shipped");
      case Delivered => assert IsLowerWord("delivered");
      case Cancelled => assert IsLowerWord("cancelled");
    }
    LowerWordIsNormal(Name(s));
  }

  /** A status may always be "changed" to itself, known or not. */
  lemma SelfTransition(s: string)
    ensures CanTransition(s, s)
  {
  }

  /** A name is listed exactly when its status is. */
  lemma NamesMember(ss: seq<Status>, b: Status)
    ensures Name(b) in Names(ss) <==> b in ss
  {
    if Name(b) in Names(ss) {
      var i :| 0 <= i < |ss| && Names(ss)[i] == Name(b);
      NameInjective(ss[i], b);
    }
    if b in ss {
      var i :| 0 <= i < |ss| && ss[i] == b;
      assert Names(ss)[i] == Name(b);
    }
  }

  /** Between known statuses, `canTransition` is "the same, or listed in the flow". */
  lemma CanTransitionKnown(a: Status, b: Status)
    ensures CanTransition(Name(a), Name(b)) <==> a == b || b in Flow(a)
  {
    NameIsNormal(a);
    NameIsNormal(b);
    NameInjective(a, b);
    ParseName(a);
    assert AllowedNext(Name(a)) == Names(Flow(a));
    NamesMember(Flow(a), b);
  }

  /** Over the five known statuses the allowed moves are exactly the table. */
  lemma {:induction false} TransitionTable(a: Status, b: Status)
    ensures CanTransition(Name(a), Name(b)) <==>
      a == b
      || (a == Pending && (b == Confirmed || b == Cancelled))
      || (a == Confirmed && (b == Shipped || b == Cancelled))
      || (a == Shipped && (b == Delivered || b == Cancelled))
  {
    CanTransitionKnown(a, b);
    FlowTable(a, b);
  }

  lemma FlowTable(a: Status, b: Status)
    ensures b in Flow(a) <==>
      || (a == Pending && (b == Confirmed || b == Cancelled))
      || (a == Confirmed && (b == Shipped || b == Cancelled))
      || (a == Shipped && (b == Delivered || b == Cancelled))
  {
  }

  /** A from-status that is not one of the five allows only itself. */
  lemma UnknownFromOnlySelf(from: string, to: string)
    requires Parse(Norm(from)).None?
    ensures CanTransition(from, to) <==> Norm(from) == Norm(to)
  {
  }

  /** `delivered` and `cancelled` are terminal. */
  lemma TerminalStates(s: Status, to: string)
    requires s == Delivered || s == Cancelled
    ensures CanTransition(Name(s), to) <==> Norm(to) == Name(s)
  {
    NameIsNormal(s);
    assert Parse(Name(s)) == Some(s);
    assert AllowedNext(Name(s)) == [];
  }

  /** No move leads into `pending` from anywhere else. */
  lemma PendingNeverReentered(from: string, to: string)
    requires CanTransition(from, to) && Norm(to) == "pending"
    ensures Norm(from) == "pending"
  {
  }

  /** Both arguments are compared after trimming and lower-casing. */
  lemma {:induction false} NormalisationIrrelevant(from: string, to: string)
    ensures CanTransition(from, to) == CanTransition(Norm(from), Norm(to))
  {
    NormIdempotent(from);
    NormIdempotent(to);
  }

  lemma TrimSpacedPending()
    ensures Trim(" Pending") == "Pending"
  {
    assert " Pending" == [' '] + "Pending";
    TrimLeadingSpace(' ', "Pending");
  }

  lemma LowerPending()
    ensures Lower("Pending") == "pending"
  {
    var l := Lower("Pending");
    assert l[0] == 'p';
    assert l[1..] == "ending";
  }

  lemma SpacedPendingNormal()
    ensures Norm(" Pending") == "pending"
  {
    TrimSpacedPending();
    LowerPending();
  }

  lemma LowerConfirmed()
    ensures Lower("CONFIRMED") == "confirmed"
  {
    var l := Lower("CONFIRMED");
    assert l[0] == 'c' && l[1] == 'o' && l[2] == 'n' && l[3] == 'f' && l[4] == 'i';
    assert l[5] == 'r' && l[6] == 'm' && l[7] == 'e' && l[8] == 'd';
  }

  lemma UpperConfirmedNormal()
    ensures Norm("CONFIRMED") == "confirmed"
  {
    TrimOfTrimmed("CONFIRMED");
    LowerConfirmed();
  }

  /** Both arguments are compared after trimming and lower-casing. */
  lemma MixedCaseExample()
    ensures CanTransition(" Pending", "CONFIRMED")
  {
    SpacedPendingNormal();
    UpperConfirmedNormal();
    assert AllowedNext("pending") == ["confirmed", "cancelled"];
  }

  /** Every successor named by the flow is one of `allowedStatuses`. */
  lemma FlowTargetsAllowed(key: string, t: string)
    requires t in AllowedNext(key)
    ensures t in AllowedNames()
  {
    var s := Parse(key).value;
    var i :| 0 <= i < |Flow(s)| && Names(Flow(s))[i] == t;
    var target := Flow(s)[i];
    assert target in AllowedStatuses;
    var j :| 0 <= j < |AllowedStatuses| && AllowedStatuses[j] == target;
    assert AllowedNames()[j] == t;
  }

  /** Membership in `allowedStatuses` is exactly what `Parse` recognises. */
  lemma AllowedNamesExact(name: string)
    ensures name in AllowedNames() <==> Parse(name).Some?
  {
    if Parse(name).Some? {
      var s := Parse(name).value;
      assert s in AllowedStatuses;
      var j :| 0 <= j < |AllowedStatuses| && AllowedStatuses[j] == s;
      assert AllowedNames()[j] == name;
    }
  }
}

=== FILE: roles.dfy ===
/**
 * `Admin\UserController::setRole`: the guards around changing a user's
 * role, and the invariant they protect (nobody becomes or stops being a
 * super admin through this endpoint).
 */
module Roles {
  import opened Wrappers

  type UserId = nat

  datatype User = User(name: string, email: string, role: string)

  type Users = map<UserId, User>

  datatype RoleError = UserNotFound | RoleNotAllowed | TargetIsSuperAdmin | OwnRole

  const SuperAdmin := "super_admin"

  /** The roles the request may ask for. */
  predicate AssignableRole(role: string)
  {
    role == "user" || role == "admin"
  }

  /**
   * The target is resolved first, then the requested role is validated,
   * then a super admin target and a change of one's own role are refused.
   */
  function SetRole(users: Users, actor: UserId, target: UserId, role: string): (r: Result<Users, RoleError>)
    ensures target !in users ==> r == Err(UserNotFound)
    ensures r.Ok? <==>
      target in users && AssignableRole(role) && users[target].role != SuperAdmin && actor != target
    ensures r.Ok? ==> r.value == users[target := users[target].(role := role)]
    ensures r.Err? && target in users && AssignableRole(role) && users[target].role == SuperAdmin ==>
      r.error == TargetIsSuperAdmin
  {
    if target !in users then Err(UserNotFound)
    else if !AssignableRole(role) then Err(RoleNotAllowed)
    else if users[target].role == SuperAdmin then Err(TargetIsSuperAdmin)
    else if actor == target then Err(OwnRole)
    else Ok(users[target := users[target].(role := role)])
  }

  function SuperAdmins(users: Users): set<UserId>
  {
    set u | u in users && users[u].role == SuperAdmin
  }

  /** One role change neither creates nor removes a super admin. */
  lemma SetRoleKeepsSuperAdmins(users: Users, actor: UserId, target: UserId, role: string)
    requires SetRole(users, actor, target, role).Ok?
    ensures SuperAdmins(SetRole(users, actor, target, role).value) == SuperAdmins(users)
  {
  }

  datatype RoleRequest = RoleRequest(actor: UserId, target: UserId, role: string)

  /** Apply a sequence of role requests, keeping the users as they are on a refusal. */
  function ApplyRoleRequests(users: Users, reqs: seq<RoleRequest>): Users
    decreases |reqs|
  {
    if |reqs| == 0 then users
    else
      var q := reqs[0];
      match SetRole(users, q.actor, q.target, q.role)
      case Ok(u) => ApplyRoleRequests(u, reqs[1..])
      case Err(_) => ApplyRoleRequests(users, reqs[1..])
  }

  /** No sequence of role changes creates or removes a super admin. */
  lemma {:induction false} RoleRequestsKeepSuperAdmins(users: Users, reqs: seq<RoleRequest>)
    ensures SuperAdmins(ApplyRoleRequests(users, reqs)) == SuperAdmins(users)
    ensures ApplyRoleRequests(users, reqs).Keys == users.Keys
    decreases |reqs|
  {
    if |reqs| > 0 {
      var q := reqs[0];
      match SetRole(users, q.actor, q.target, q.role)
      case Ok(u) =>
        SetRoleKeepsSuperAdmins(users, q.actor, q.target, q.role);
        RoleRequestsKeepSuperAdmins(u, reqs[1..]);
      case Err(_) =>
        RoleRequestsKeepSuperAdmins(users, reqs[1..]);
    }
  }
}

=== FILE: shipping.dfy ===
/**
 * `ShippingService::calculate`: a pure map from (city, subtotal) to a
 * shipping method and fee. The checkout controller does not call it; its
 * own inline fee rule is `Checkout.ShippingFee`, and the two are related by
 * `Checkout.FeeRulesAgree`.
 */
module Shipping {
  import opened Text

  datatype Method = Post | Courier | Free

  function MethodName(m: Method): string
  {
    match m
    case Post => "post"
    case Courier => "courier"
    case Free => "free"
  }

  datatype Quote = Quote(via: Method, fee: int)

  const DefaultFee := 60000
  const CourierFee := 30000
  const FreeThreshold := 1_000_000

  /**
   * The service compares the lower-cased city with both `"Tehran"` and
   * `"tehran"`; only the second can ever match.
   */
  function Calculate(city: string, subtotal: int): (q: Quote)
    ensures q.fee in {0, CourierFee, DefaultFee}
    ensures q.via == Free <==> q.fee == 0
    ensures subtotal >= FreeThreshold ==> q == Quote(Free, 0)
    ensures subtotal < FreeThreshold && Norm(city) == "tehran" ==> q == Quote(Courier, CourierFee)
    ensures subtotal < FreeThreshold && Norm(city) != "tehran" ==> q == Quote(Post, DefaultFee)
  {
    var c := Norm(city);
    var q0 := Quote(Post, DefaultFee);
    var q1 := if c == "Tehran" || c == "tehran" then Quote(Courier, CourierFee) else q0;
    if subtotal >= FreeThreshold then Quote(Free, 0) else q1
  }

  /** The capitalised comparison is dead: a normalised city has no capitals. */
  lemma CapitalisedBranchDead(city: string)
    ensures Norm(city) != "Tehran"
  {
    if |Norm(city)| == 6 {
      LowerHasNoUpper(Trim(city), 0);
    }
  }

  /** For a fixed city, a larger subtotal never costs more shipping. */
  lemma FeeNonIncreasing(city: string, s1: int, s2: int)
    requires s1 <= s2
    ensures Calculate(city, s2).fee <= Calculate(city, s1).fee
  {
  }
}

=== FILE: shop.dfy ===
/**
 * The shop page: the filtered and sorted product list, and the guard in
 * front of adding a product to the cart.
 */
module Shop {
  import opened Wrappers
  import opened Text
  import Cart
  import StockBadge

  /** A product as the listing receives it; `createdAt` is the creation time in milliseconds, when known. */
  datatype ShopProduct = ShopProduct(
    id: int, title: string, price: int, stock: int, active: bool, createdAt: Option<int>)

  /** The filter switches, the search box, and the sort select. */
  datatype View = View(query: string, onlyActive: bool, onlyInStock: bool, sortBy: string)

  /** The `newest` sort key: the creation time, or the id when there is none. */
  function Recency(p: ShopProduct): int
  {
    if p.createdAt.Some? then p.createdAt.value else p.id
  }

  /** The key the list is sorted on in ascending order for each select value. */
  function SortKey(sortBy: string, p: ShopProduct): int
  {
    if sortBy == "price_asc" then p.price
    else if sortBy == "price_desc" then -p.price
    else -Recency(p)
  }

  /** Whether a product survives the three filters. */
  predicate Passes(v: View, p: ShopProduct)
  {
    var query := JsNorm(v.query);
    (!v.onlyActive || p.active)
    && (!v.onlyInStock || p.stock > 0)
    && (query == "" || Contains(Lower(p.title), query))
  }

  /** `list.filter(...)`: the products that pass, in their original order. */
  function Keep(v: View, ps: seq<ShopProduct>): (r: seq<ShopProduct>)
    ensures multiset(r) <= multiset(ps)
    ensures forall p :: p in r <==> p in ps && Passes(v, p)
    decreases |ps|
  {
    if |ps| == 0 then []
    else
      var rest := Keep(v, ps[1..]);
      assert ps == [ps[0]] + ps[1..];
      if Passes(v, ps[0]) then [ps[0]] + rest else rest
  }

  predicate SortedBy(sortBy: string, ps: seq<ShopProduct>)
  {
    forall i, j :: 0 <= i < j < |ps| ==> SortKey(sortBy, ps[i]) <= SortKey(sortBy, ps[j])
  }

  /** Put `x` into a list before the first element with a larger key. */
  function Insert(sortBy: string, x: ShopProduct, ps: seq<ShopProduct>): (r: seq<ShopProduct>)
    ensures multiset(r) == multiset(ps) + multiset{x}
    ensures |r| == |ps| + 1
    decreases |ps|
  {
    if |ps| == 0 then [x]
    else if SortKey(sortBy, x) < SortKey(sortBy, ps[0]) then [x] + ps
    else
      assert ps == [ps[0]] + ps[1..];
      [ps[0]] + Insert(sortBy, x, ps[1..])
  }

  /** Inserting into a sorted list keeps it sorted. */
  lemma {:induction false} InsertSorted(sortBy: string, x: ShopProduct, ps: seq<ShopProduct>)
    requires SortedBy(sortBy, ps)
    ensures SortedBy(sortBy, Insert(sortBy, x, ps))
    decreases |ps|
  {
    if |ps| > 0 && SortKey(sortBy, x) >= SortKey(sortBy, ps[0]) {
      var rest := Insert(sortBy, x, ps[1..]);
      InsertSorted(sortBy, x, ps[1..]);
      forall y | y in multiset(rest)
        ensures SortKey(sortBy, ps[0]) <= SortKey(sortBy, y)
      {
        assert y in multiset(ps[1..]) + multiset{x};
        if y != x {
          assert y in ps[1..];
          var j :| 0 <= j < |ps[1..]| && ps[1..][j] == y;
          assert ps[j + 1] == y;
        }
      }
      forall j | 0 <= j < |rest|
        ensures SortKey(sortBy, ps[0]) <= SortKey(sortBy, rest[j])
      {
        assert rest[j] in multiset(rest);
      }
      assert Insert(sortBy, x, ps) == [ps[0]] + rest;
    }
  }

  /** `list.sort(...)`: a stable insertion sort on the key of the select value. */
  function Sort(sortBy: string, ps: seq<ShopProduct>): (r: seq<ShopProduct>)
    ensures SortedBy(sortBy, r)
    ensures multiset(r) == multiset(ps)
    decreases |ps|
  {
    if |ps| == 0 then []
    else
      var init := ps[..|ps| - 1];
      assert ps == init + [ps[|ps| - 1]];
      InsertSorted(sortBy, ps[|ps| - 1], Sort(sortBy, init));
      Insert(sortBy, ps[|ps| - 1], Sort(sortBy, init))
  }

  /** The `filtered` list the page shows. */
  function Filtered(v: View, ps: seq<ShopProduct>): (r: seq<ShopProduct>)
    ensures multiset(r) <= multiset(ps)
    ensures forall p :: p in r <==> p in ps && Passes(v, p)
    ensures SortedBy(v.sortBy, r)
  {
    var kept := Keep(v, ps);
    var r := Sort(v.sortBy, kept);
    assert forall p :: p in r <==> p in multiset(r);
    assert forall p :: p in kept <==> p in multiset(kept);
    r
  }

  /** Every shown product satisfies each switched-on filter and contains the query. */
  lemma FilteredSatisfiesFilters(v: View, ps: seq<ShopProduct>, i: int)
    requires 0 <= i < |Filtered(v, ps)|
    ensures v.onlyActive ==> Filtered(v, ps)[i].active
    ensures v.onlyInStock ==> Filtered(v, ps)[i].stock > 0
    ensures JsNorm(v.query) != "" ==> Contains(Lower(Filtered(v, ps)[i].title), JsNorm(v.query))
  {
    assert Filtered(v, ps)[i] in Filtered(v, ps);
  }

  /** The price sorts order the shown list by price, up or down; the default puts the newest first. */
  lemma FilteredOrder(v: View, ps: seq<ShopProduct>)
    ensures v.sortBy == "price_asc" ==> forall i, j :: 0 <= i < j < |Filtered(v, ps)| ==>
      Filtered(v, ps)[i].price <= Filtered(v, ps)[j].price
    ensures v.sortBy == "price_desc" ==> forall i, j :: 0 <= i < j < |Filtered(v, ps)| ==>
      Filtered(v, ps)[i].price >= Filtered(v, ps)[j].price
    ensures v.sortBy != "price_asc" && v.sortBy != "price_desc" ==> forall i, j :: 0 <= i < j < |Filtered(v, ps)| ==>
      Recency(Filtered(v, ps)[i]) >= Recency(Filtered(v, ps)[j])
  {
    var r := Filtered(v, ps);
    forall i, j | 0 <= i < j < |r|
      ensures SortKey(v.sortBy, r[i]) <= SortKey(v.sortBy, r[j])
    {
    }
  }

  /** `addToCart`: refused for an inactive or out-of-stock product, otherwise the cart's `add`. */
  function AddToCart(cart: Cart.Cart, p: ShopProduct): (r: Cart.Cart)
    ensures !p.active || p.stock <= 0 ==> r == cart
    ensures p.active && p.stock > 0 ==> Cart.HasProduct(r, p.id)
  {
    if !p.active then cart
    else if p.stock <= 0 then cart
    else Cart.Add(cart, p.id, p.title, p.price)
  }

  /** The guard is the only way the cart stays the same: an accepted product always changes it. */
  lemma AddToCartChangesIff(cart: Cart.Cart, p: ShopProduct)
    ensures AddToCart(cart, p) == cart <==> !p.active || p.stock <= 0
  {
    if p.active && p.stock > 0 {
      var r := AddToCart(cart, p);
      if Cart.HasProduct(cart, p.id) {
        var i :| 0 <= i < |cart| && cart[i].productId == p.id;
        assert r[i].qty == cart[i].qty + 1;
      } else {
        assert |r| == |cart| + 1;
      }
    }
  }

  /** A product is accepted exactly when its badge shows a count, whatever the threshold. */
  lemma AddToCartMatchesBadge(cart: Cart.Cart, p: ShopProduct, lowThreshold: int)
    ensures AddToCart(cart, p) != cart <==> StockBadge.Available(StockBadge.Classify(p.stock, p.active, lowThreshold))
  {
    AddToCartChangesIff(cart, p);
  }
}

=== FILE: stock_badge.dfy ===
/**
 * `StockBadge`: the label shown for a product from its stock, its active
 * flag and the low-stock threshold.
 */
module StockBadge {
  import opened Wrappers

  const DefaultLowThreshold := 5

  datatype Badge = Inactive | OutOfStock | LowStock(count: int) | InStock(count: int)

  /** Inactive first, then out of stock, then low stock up to the threshold, then in stock. */
  function Classify(stock: int, active: bool, lowThreshold: int): (b: Badge)
    ensures b == Inactive <==> !active
    ensures b == OutOfStock <==> active && stock <= 0
    ensures b.LowStock? <==> active && 0 < stock <= lowThreshold
    ensures b.InStock? <==> active && stock > 0 && stock > lowThreshold
    ensures (b.LowStock? || b.InStock?) ==> b.count == stock
  {
    if !active then Inactive
    else if stock <= 0 then OutOfStock
    else if stock <= lowThreshold then LowStock(stock)
    else InStock(stock)
  }

  /**
   * The component with its defaults: a missing stock counts as 0, a missing
   * active flag as true, a missing threshold as 5.
   */
  function Render(stock: Option<int>, isActive: Option<bool>, lowThreshold: Option<int>): (b: Badge)
    ensures stock.Some? && isActive.Some? && lowThreshold.Some? ==>
      b == Classify(stock.value, isActive.value, lowThreshold.value)
    ensures isActive.None? && stock.None? ==> b == OutOfStock
    ensures isActive.None? && lowThreshold.None? && stock.Some? && 0 < stock.value <= 5 ==> b == LowStock(stock.value)
    ensures isActive.None? && lowThreshold.None? && stock.Some? && stock.value > 5 ==> b == InStock(stock.value)
  {
    Classify(
      if stock.Some? then stock.value else 0,
      if isActive.Some? then isActive.value else true,
      if lowThreshold.Some? then lowThreshold.value else DefaultLowThreshold)
  }

  /** Each missing prop behaves exactly as its default given explicitly: stock 0, active, threshold 5. */
  lemma RenderDefaults(stock: Option<int>, isActive: Option<bool>, lowThreshold: Option<int>)
    ensures stock.None? ==> Render(stock, isActive, lowThreshold) == Render(Some(0), isActive, lowThreshold)
    ensures isActive.None? ==> Render(stock, isActive, lowThreshold) == Render(stock, Some(true), lowThreshold)
    ensures lowThreshold.None? ==>
      Render(stock, isActive, lowThreshold) == Render(stock, isActive, Some(DefaultLowThreshold))
  {
  }

  /** A product can be bought exactly when its badge is one of the two with a count. */
  predicate Available(b: Badge)
  {
    b.LowStock? || b.InStock?
  }

  /** Whether a badge shows a count does not depend on the threshold. */
  lemma AvailabilityIgnoresThreshold(stock: int, active: bool, t1: int, t2: int)
    ensures Available(Classify(stock, active, t1)) <==> Available(Classify(stock, active, t2))
    ensures Available(Classify(stock, active, t1)) <==> active && stock > 0
  {
  }
}

=== FILE: store.dfy ===
/**
 * The persistent records the fulfilment core works on: products with their
 * stock counter, order lines as submitted, orders with their item
 * snapshots, and the two stock movements (decrement at checkout, increment
 * on cancellation).
 */
module Store {
  import opened Wrappers

  type ProductId = nat

  /** A catalogue row; price is an integer amount of minor currency units. */
  datatype Product = Product(title: string, price: int, stock: int, active: bool)

  /** The products table, keyed by id. */
  type Catalog = map<ProductId, Product>

  /** One `(product_id, qty)` entry of a checkout request. */
  datatype Line = Line(productId: ProductId, qty: int)

  /**
   * A frozen order line. `productId` is nullable because the foreign key is
   * set to null when the product is deleted.
   */
  datatype OrderItem = OrderItem(
    productId: Option<ProductId>,
    title: string,
    unitPrice: int,
    qty: int,
    subtotal: int)

  datatype Customer = Customer(
    name: string,
    email: string,
    phone: Option<string>,
    address: string,
    city: string)

  /** An order row; `status` is stored as a raw string. */
  datatype Order = Order(
    id: nat,
    userId: nat,
    code: string,
    status: string,
    subtotal: int,
    shippingFee: int,
    total: int,
    customer: Customer,
    shippingMethod: Option<string>,
    tracking: Option<string>,
    items: seq<OrderItem>)

  /** Total quantity the lines request of product `p`. */
  function LineQty(lines: seq<Line>, p: ProductId): int
  {
    if |lines| == 0 then 0
    else (if lines[0].productId == p then lines[0].qty else 0) + LineQty(lines[1..], p)
  }

  /** Total quantity the items hold of product `p`. */
  function ItemQty(items: seq<OrderItem>, p: ProductId): int
  {
    if |items| == 0 then 0
    else (if items[0].productId == Some(p) then items[0].qty else 0) + ItemQty(items[1..], p)
  }

  predicate DistinctProducts(lines: seq<Line>)
  {
    forall i, j :: 0 <= i < j < |lines| ==> lines[i].productId != lines[j].productId
  }

  /** Add `delta` to one product's stock; a missing product matches no row. */
  function AdjustStock(c: Catalog, p: ProductId, delta: int): (r: Catalog)
    ensures r.Keys == c.Keys
    ensures forall q :: q in c && q != p ==> r[q] == c[q]
    ensures p in c ==> r[p] == c[p].(stock := c[p].stock + delta)
  {
    if p in c then c[p := c[p].(stock := c[p].stock + delta)] else c
  }

  /**
   * The restock loop run on cancellation: every item adds its qty back to
   * its product, once.
   */
  function Restock(c: Catalog, items: seq<OrderItem>): (r: Catalog)
    ensures r.Keys == c.Keys
    ensures forall p :: p in c ==> r[p] == c[p].(stock := c[p].stock + ItemQty(items, p))
    decreases |items|
  {
    if |items| == 0 then c
    else
      var c' := match items[0].productId
        case Some(p) => AdjustStock(c, p, items[0].qty)
        case None => c;
      Restock(c', items[1..])
  }

  /** The stock-decrement loop run at the end of checkout, one step per line. */
  function Decrement(c: Catalog, lines: seq<Line>): (r: Catalog)
    ensures r.Keys == c.Keys
    ensures forall p :: p in c ==> r[p] == c[p].(stock := c[p].stock - LineQty(lines, p))
    decreases |lines|
  {
    if |lines| == 0 then c
    else Decrement(AdjustStock(c, lines[0].productId, -lines[0].qty), lines[1..])
  }

  lemma {:induction false} LineQtyAppend(a: seq<Line>, b: seq<Line>, p: ProductId)
    ensures LineQty(a + b, p) == LineQty(a, p) + LineQty(b, p)
    decreases |a|
  {
    if |a| == 0 {
      assert a + b == b;
    } else {
      assert (a + b)[0] == a[0];
      assert (a + b)[1..] == a[1..] + b;
      LineQtyAppend(a[1..], b, p);
    }
  }

  lemma {:induction false} LineQtyAbsent(lines: seq<Line>, p: ProductId)
    requires forall i :: 0 <= i < |lines| ==> lines[i].productId != p
    ensures LineQty(lines, p) == 0
    decreases |lines|
  {
    if |lines| > 0 {
      LineQtyAbsent(lines[1..], p);
    }
  }

  /** With distinct products, a product's total is the qty of its one line. */
  lemma {:induction false} LineQtyDistinct(lines: seq<Line>, i: int)
    requires DistinctProducts(lines)
    requires 0 <= i < |lines|
    ensures LineQty(lines, lines[i].productId) == lines[i].qty
    decreases |lines|
  {
    var p := lines[i].productId;
    if i == 0 {
      LineQtyAbsent(lines[1..], p);
    } else {
      LineQtyDistinct(lines[1..], i - 1);
    }
  }

  /** Restocking the items gives back a catalogue their quantities were taken from. */
  lemma RestockUndoesTake(items: seq<OrderItem>, before: Catalog, after: Catalog)
    requires after.Keys == before.Keys
    requires forall p :: p in before ==>
      after[p] == before[p].(stock := before[p].stock - ItemQty(items, p))
    ensures Restock(after, items) == before
  {
    var back := Restock(after, items);
    forall p | p in before ensures back[p] == before[p] {
    }
  }
}

=== FILE: text.dfy ===
/**
 * String helpers shared by the server and the client: trimming, ASCII
 * lower-casing, decimal rendering and substring search.
 */
module Text {

  /** Whose `trim` is meant: PHP's default character set, or JavaScript's. */
  datatype Runtime = Php | Js

  /** The characters PHP's `trim` strips by default. */
  predicate IsSpace(c: char)
  {
    c == ' ' || c == '\t' || c == '\n' || c == '\r' || c == '\U{0}' || c == '\U{B}'
  }

  /**
   * The characters JavaScript's `trim` strips: ECMAScript WhiteSpace (tab,
   * vertical tab, form feed, space, no-break space, the byte order mark and
   * the other Zs space separators) and LineTerminator (line feed, carriage
   * return, U+2028, U+2029). Unlike PHP's set, NUL is not among them.
   */
  predicate IsJsSpace(c: char)
  {
    || c == '\t' || c == '\U{B}' || c == '\U{C}' || c == ' ' || c == '\U{A0}' || c == '\U{FEFF}'
    || c == '\U{1680}' || '\U{2000}' <= c <= '\U{200A}' || c == '\U{202F}' || c == '\U{205F}'
    || c == '\U{3000}' || c == '\n' || c == '\r' || c == '\U{2028}' || c == '\U{2029}'
  }

  predicate White(rt: Runtime, c: char)
  {
    match rt
    case Php => IsSpace(c)
    case Js => IsJsSpace(c)
  }

  function TrimLeft(rt: Runtime, s: string): (r: string)
    ensures |r| <= |s| && r == s[|s| - |r|..]
    ensures forall i :: 0 <= i < |s| - |r| ==> White(rt, s[i])
    ensures |r| > 0 ==> !White(rt, r[0])
  {
    if |s| > 0 && White(rt, s[0]) then TrimLeft(rt, s[1..]) else s
  }

  function TrimRight(rt: Runtime, s: string): (r: string)
    ensures |r| <= |s| && r == s[..|r|]
    ensures forall i :: |r| <= i < |s| ==> White(rt, s[i])
    ensures |r| > 0 ==> !White(rt, r[|r| - 1])
  {
    if |s| > 0 && White(rt, s[|s| - 1]) then TrimRight(rt, s[..|s| - 1]) else s
  }

  /** Strip leading and trailing white space, as the given runtime counts it. */
  function TrimAs(rt: Runtime, s: string): (r: string)
    ensures |r| <= |s|
    ensures |r| > 0 ==> !White(rt, r[0]) && !White(rt, r[|r| - 1])
  {
    TrimRight(rt, TrimLeft(rt, s))
  }

  /** PHP's `trim`. */
  function Trim(s: string): (r: string)
    ensures |r| <= |s|
    ensures |r| > 0 ==> !IsSpace(r[0]) && !IsSpace(r[|r| - 1])
  {
    TrimAs(Php, s)
  }

  /** JavaScript's `String.prototype.trim`. */
  function JsTrim(s: string): (r: string)
    ensures |r| <= |s|
    ensures |r| > 0 ==> !IsJsSpace(r[0]) && !IsJsSpace(r[|r| - 1])
  {
    TrimAs(Js, s)
  }

  /** Lower-case one character; only ASCII letters have a case here. */
  function LowerChar(c: char): (r: char)
    ensures IsSpace(r) <==> IsSpace(c)
    ensures IsJsSpace(r) <==> IsJsSpace(c)
    ensures !('A' <= r <= 'Z')
  {
    if 'A' <= c <= 'Z' then (c as int + 32) as char else c
  }

  function Lower(s: string): (r: string)
    ensures |r| == |s|
    ensures forall i :: 0 <= i < |s| ==> r[i] == LowerChar(s[i])
  {
    seq(|s|, i requires 0 <= i < |s| => LowerChar(s[i]))
  }

  /** The comparison key the server uses for statuses and cities: `strtolower(trim(s))`. */
  function Norm(s: string): string
  {
    Lower(Trim(s))
  }

  /** The page's `s.trim().toLowerCase()`. */
  function JsNorm(s: string): string
  {
    Lower(JsTrim(s))
  }

  /** A string with no white space at either end is its own trim. */
  lemma TrimAsOfTrimmed(rt: Runtime, u: string)
    requires |u| > 0 ==> !White(rt, u[0]) && !White(rt, u[|u| - 1])
    ensures TrimAs(rt, u) == u
  {
  }

  lemma TrimOfTrimmed(u: string)
    requires |u| > 0 ==> !IsSpace(u[0]) && !IsSpace(u[|u| - 1])
    ensures Trim(u) == u
  {
    TrimAsOfTrimmed(Php, u);
  }

  /** One leading white-space character in front of a trimmed string is all `trim` removes. */
  lemma TrimLeadingSpace(c: char, u: string)
    requires IsSpace(c) && |u| > 0 && !IsSpace(u[0]) && !IsSpace(u[|u| - 1])
    ensures Trim([c] + u) == u
  {
    var s := [c] + u;
    assert s[1..] == u;
    assert White(Php, s[0]);
    assert TrimLeft(Php, s) == TrimLeft(Php, u);
    assert TrimLeft(Php, u) == u;
    assert TrimRight(Php, u) == u;
  }

  /** Trimming twice is the same as trimming once, for either runtime. */
  lemma TrimAsIdempotent(rt: Runtime, s: string)
    ensures TrimAs(rt, TrimAs(rt, s)) == TrimAs(rt, s)
  {
    TrimAsOfTrimmed(rt, TrimAs(rt, s));
  }

  lemma TrimIdempotent(s: string)
    ensures Trim(Trim(s)) == Trim(s)
  {
    TrimAsIdempotent(Php, s);
  }

  lemma JsTrimIdempotent(s: string)
    ensures JsTrim(JsTrim(s)) == JsTrim(s)
  {
    TrimAsIdempotent(Js, s);
  }

  /** Lower-casing keeps white space at the ends where it is, and nothing else. */
  lemma LowerKeepsEdges(rt: Runtime, t: string)
    requires |t| > 0 ==> !White(rt, t[0]) && !White(rt, t[|t| - 1])
    ensures |Lower(t)| > 0 ==> !White(rt, Lower(t)[0]) && !White(rt, Lower(t)[|t| - 1])
  {
  }

  lemma LowerIdempotent(t: string)
    ensures Lower(Lower(t)) == Lower(t)
  {
  }

  /** Normalising twice is the same as normalising once. */
  lemma NormIdempotent(s: string)
    ensures Norm(Norm(s)) == Norm(s)
  {
    LowerKeepsEdges(Php, Trim(s));
    TrimAsOfTrimmed(Php, Lower(Trim(s)));
    LowerIdempotent(Trim(s));
  }

  /** The page's normal form is stable too. */
  lemma JsNormIdempotent(s: string)
    ensures JsNorm(JsNorm(s)) == JsNorm(s)
  {
    LowerKeepsEdges(Js, JsTrim(s));
    TrimAsOfTrimmed(Js, Lower(JsTrim(s)));
    LowerIdempotent(JsTrim(s));
  }

  /** A string trims to nothing exactly when every character in it is white space. */
  lemma TrimEmptyIffAllWhite(rt: Runtime, s: string)
    ensures TrimAs(rt, s) == [] <==> forall i :: 0 <= i < |s| ==> White(rt, s[i])
  {
  }

  /** A one-character string trims to nothing exactly when that character is white space. */
  lemma TrimSingle(rt: Runtime, c: char)
    ensures TrimAs(rt, [c]) == if White(rt, c) then [] else [c]
  {
    if White(rt, c) {
      assert [c][1..] == [];
      assert TrimLeft(rt, [c]) == [];
    } else {
      TrimAsOfTrimmed(rt, [c]);
    }
  }

  /** PHP keeps a no-break space that JavaScript strips. */
  lemma NoBreakSpaceDiffers()
    ensures Trim(['\U{A0}']) == ['\U{A0}']
    ensures JsTrim(['\U{A0}']) == []
  {
    TrimSingle(Php, '\U{A0}');
    TrimSingle(Js, '\U{A0}');
  }

  /** PHP strips a NUL character that JavaScript keeps. */
  lemma NulDiffers()
    ensures Trim(['\U{0}']) == []
    ensures JsTrim(['\U{0}']) == ['\U{0}']
  {
    TrimSingle(Php, '\U{0}');
    TrimSingle(Js, '\U{0}');
  }

  predicate IsLowerWord(s: string)
  {
    forall i :: 0 <= i < |s| ==> 'a' <= s[i] <= 'z'
  }

  /** A word of lower-case ASCII letters is its own normal form. */
  lemma LowerWordIsNormal(s: string)
    requires IsLowerWord(s)
    ensures Norm(s) == s
  {
    TrimOfTrimmed(s);
    assert Lower(s) == s;
  }

  /** No lower-cased string contains an upper-case ASCII letter. */
  lemma LowerHasNoUpper(s: string, i: int)
    requires 0 <= i < |s|
    ensures !('A' <= Lower(s)[i] <= 'Z')
  {
  }

  predicate OccursAt(hay: string, needle: string, i: int)
  {
    0 <= i <= |hay| - |needle| && hay[i..i + |needle|] == needle
  }

  /** `needle` occurs in `hay` at some offset (JavaScript `includes`). */
  predicate Contains(hay: string, needle: string)
  {
    exists i :: 0 <= i <= |hay| - |needle| && OccursAt(hay, needle, i)
  }

  function DigitChar(d: nat): (c: char)
    requires d < 10
    ensures '0' <= c <= '9'
  {
    (48 + d) as char
  }

  function DigitValue(c: char): (d: nat)
    requires '0' <= c <= '9'
    ensures d < 10
  {
    c as int - 48
  }

  predicate IsDigits(s: string)
  {
    forall i :: 0 <= i < |s| ==> '0' <= s[i] <= '9'
  }

  /** Decimal rendering of a natural number, without leading zeros. */
  function NatToDigits(n: nat): (r: string)
    ensures |r| > 0 && IsDigits(r)
    decreases n
  {
    if n < 10 then [DigitChar(n)] else NatToDigits(n / 10) + [DigitChar(n % 10)]
  }

  /** The value of a string of decimal digits; the empty string is 0. */
  function DigitsToNat(s: string): nat
    requires IsDigits(s)
  {
    if |s| == 0 then 0 else DigitsToNat(s[..|s| - 1]) * 10 + DigitValue(s[|s| - 1])
  }

  lemma {:induction false} DigitsRoundTrip(n: nat)
    ensures DigitsToNat(NatToDigits(n)) == n
    decreases n
  {
    var r := NatToDigits(n);
    if n >= 10 {
      DigitsRoundTrip(n / 10);
      assert r[..|r| - 1] == NatToDigits(n / 10);
    }
  }

  function Repeat(c: char, k: nat): (r: string)
    ensures |r| == k
    ensures forall i :: 0 <= i < k ==> r[i] == c
  {
    if k == 0 then [] else [c] + Repeat(c, k - 1)
  }

  /** PHP `str_pad(s, width, c, STR_PAD_LEFT)`: longer strings are kept whole. */
  function PadLeft(s: string, width: nat, c: char): (r: string)
    ensures |r| == if |s| >= width then |s| else width
    ensures r[|r| - |s|..] == s
    ensures forall i :: 0 <= i < |r| - |s| ==> r[i] == c
  {
    if |s| >= width then s else Repeat(c, width - |s|) + s
  }

  /** Leading zeros do not change a decimal value. */
  lemma {:induction false} LeadingZeros(k: nat, s: string)
    requires IsDigits(s)
    ensures IsDigits(Repeat('0', k) + s)
    ensures DigitsToNat(Repeat('0', k) + s) == DigitsToNat(s)
    decreases |s|
  {
    var z := Repeat('0', k);
    if |s| == 0 {
      assert z + s == z;
      ZerosValue(k);
    } else {
      var p := s[..|s| - 1];
      assert (z + s)[..|z + s| - 1] == z + p;
      LeadingZeros(k, p);
    }
  }

  lemma {:induction false} ZerosValue(k: nat)
    ensures DigitsToNat(Repeat('0', k)) == 0
  {
    if k > 0 {
      var z := Repeat('0', k);
      assert z[..|z| - 1] == Repeat('0', k - 1);
      ZerosValue(k - 1);
    }
  }
}

=== FILE: wishlist.dfy ===
/**
 * `WishlistController`: one user's wishlist as a set of product ids, with
 * the membership flip of `toggle`, the removal of `destroy`, and the two
 * read views `ids` and `index`.
 */
module Wishlist {
  import opened Wrappers
  import opened Store

  datatype WishlistError = ProductNotFound

  /** The new wishlist and the `liked` flag of the response. */
  datatype Toggled = Toggled(wishlist: set<ProductId>, liked: bool)

  /** `toggle`: detach when present (liked = false), attach otherwise (liked = true). */
  function Toggle(w: set<ProductId>, cat: Catalog, p: ProductId): (r: Result<Toggled, WishlistError>)
    ensures r.Ok? <==> p in cat
    ensures r.Ok? ==> (r.value.liked <==> p !in w)
    ensures r.Ok? ==> (p in r.value.wishlist <==> r.value.liked)
    ensures r.Ok? ==> forall q :: q != p ==> (q in r.value.wishlist <==> q in w)
  {
    if p !in cat then Err(ProductNotFound)
    else if p in w then Ok(Toggled(w - {p}, false))
    else Ok(Toggled(w + {p}, true))
  }

  /** `destroy`: detach, whether or not the product was there. */
  function Remove(w: set<ProductId>, cat: Catalog, p: ProductId): (r: Result<set<ProductId>, WishlistError>)
    ensures r.Ok? <==> p in cat
    ensures r.Ok? ==> p !in r.value
    ensures r.Ok? ==> forall q :: q != p ==> (q in r.value <==> q in w)
  {
    if p !in cat then Err(ProductNotFound) else Ok(w - {p})
  }

  /**
   * `ids`: the ids read through the wishlist's join with the products, so a
   * product that has since been deleted is not listed, active or not.
   */
  function Ids(w: set<ProductId>, cat: Catalog): (r: set<ProductId>)
    ensures forall p :: p in r <==> p in w && p in cat
  {
    set p | p in w && p in cat
  }

  /** `index`: the wishlisted products that are active. */
  function Index(w: set<ProductId>, cat: Catalog): (r: set<ProductId>)
    ensures r <= Ids(w, cat)
    ensures forall p :: p in r <==> p in w && p in cat && cat[p].active
  {
    set p | p in w && p in cat && cat[p].active
  }

  /** Toggling twice gives back the wishlist we started from. */
  lemma ToggleTwice(w: set<ProductId>, cat: Catalog, p: ProductId)
    requires p in cat
    ensures Toggle(Toggle(w, cat, p).value.wishlist, cat, p).value.wishlist == w
    ensures Toggle(Toggle(w, cat, p).value.wishlist, cat, p).value.liked == (p in w)
  {
  }

  /** Removing twice is the same as removing once. */
  lemma RemoveIdempotent(w: set<ProductId>, cat: Catalog, p: ProductId)
    requires p in cat
    ensures Remove(Remove(w, cat, p).value, cat, p) == Remove(w, cat, p)
  {
    assert w - {p} - {p} == w - {p};
  }

  /**
   * After a toggle, the product is on the shown list iff it is now liked and
   * active; every other product's place on the list is unchanged.
   */
  lemma IndexAfterToggle(w: set<ProductId>, cat: Catalog, p: ProductId)
    requires p in cat
    ensures p in Index(Toggle(w, cat, p).value.wishlist, cat) <==> Toggle(w, cat, p).value.liked && cat[p].active
    ensures forall q :: q != p ==> (q in Index(Toggle(w, cat, p).value.wishlist, cat) <==> q in Index(w, cat))
  {
  }

  /**
   * A liked product that has been deactivated still counts in `ids` but is
   * hidden by `index`, so the two views differ exactly on such products.
   */
  lemma IdsAndIndexDiffer(w: set<ProductId>, cat: Catalog)
    ensures Ids(w, cat) - Index(w, cat) == set p | p in w && p in cat && !cat[p].active
  {
  }

  /** The concrete case: one liked product, since deactivated. */
  lemma LikedInactiveHidden(w: set<ProductId>, cat: Catalog, p: ProductId)
    requires p in w && p in cat && !cat[p].active
    ensures p in Ids(w, cat) && p !in Index(w, cat)
    ensures |Index(w, cat)| < |Ids(w, cat)|
  {
    assert Index(w, cat) <= Ids(w, cat) - {p};
    SubsetSmaller(Index(w, cat), Ids(w, cat) - {p});
  }

  lemma SubsetSmaller(a: set<ProductId>, b: set<ProductId>)
    requires a <= b
    ensures |a| <= |b|
  {
    if a != {} {
      var x :| x in a;
      SubsetSmaller(a - {x}, b - {x});
    }
  }
}

=== FILE: wishlist_client.dfy ===
/**
 * The client wishlist context: the set of liked ids, the optimistic
 * `toggle` with its reconcile and rollback steps, `isLiked` and `count`.
 */
module WishlistClient {
  import opened Wrappers
  import Store
  import Wishlist

  type Liked = set<int>

  /** The optimistic step, and also the rollback: flip membership of one id. */
  function Flip(liked: Liked, id: int): (r: Liked)
    ensures id in r <==> id !in liked
    ensures forall q :: q != id ==> (q in r <==> q in liked)
  {
    if id in liked then liked - {id} else liked + {id}
  }

  /** After the server answers: put the id in or take it out according to `liked`. */
  function Reconcile(liked: Liked, id: int, serverLiked: bool): (r: Liked)
    ensures id in r <==> serverLiked
    ensures forall q :: q != id ==> (q in r <==> q in liked)
  {
    if serverLiked then liked + {id} else liked - {id}
  }

  /** How the request ends: the server's `liked` flag, or a failure. */
  datatype Response = Answered(liked: bool) | Failed

  datatype ToggleError = LoginRequired | RequestFailed

  /** The liked set after the call, and the value returned or the error thrown. */
  datatype Outcome = Outcome(liked: Liked, result: Result<bool, ToggleError>)

  /**
   * `toggle`: without a token, throw before touching anything; otherwise
   * flip optimistically, then reconcile to the answer or flip back on
   * failure. No other update is interleaved.
   */
  function Toggle(liked: Liked, hasToken: bool, id: int, response: Response): (r: Outcome)
    ensures !hasToken ==> r == Outcome(liked, Err(LoginRequired))
    ensures hasToken && response.Answered? ==>
      r.result == Ok(response.liked) && (id in r.liked <==> response.liked)
    ensures hasToken && response.Failed? ==> r.result == Err(RequestFailed)
    ensures forall q :: q != id ==> (q in r.liked <==> q in liked)
  {
    if !hasToken then Outcome(liked, Err(LoginRequired))
    else
      var optimistic := Flip(liked, id);
      match response
      case Answered(serverLiked) => Outcome(Reconcile(optimistic, id, serverLiked), Ok(serverLiked))
      case Failed => Outcome(Flip(optimistic, id), Err(RequestFailed))
  }

  /** `isLiked`. */
  predicate IsLiked(liked: Liked, id: int)
  {
    id in liked
  }

  /** `count`: the size of the liked set. */
  function Count(liked: Liked): (n: nat)
    ensures n == 0 <==> liked == {}
  {
    |liked|
  }

  /** Flipping twice restores the set. */
  lemma FlipTwice(liked: Liked, id: int)
    ensures Flip(Flip(liked, id), id) == liked
  {
  }

  /** A failed request leaves the set as it was before the call. */
  lemma FailureRollsBack(liked: Liked, id: int)
    ensures Toggle(liked, true, id, Failed).liked == liked
  {
    FlipTwice(liked, id);
  }

  /** The optimistic step moves the count by exactly one. */
  lemma FlipCount(liked: Liked, id: int)
    ensures id in liked ==> Count(Flip(liked, id)) == Count(liked) - 1
    ensures id !in liked ==> Count(Flip(liked, id)) == Count(liked) + 1
  {
  }

  /**
   * When the client starts from the server's wishlist, a successful toggle
   * ends with exactly the server's new wishlist, whatever the server said.
   */
  lemma ClientFollowsServer(w: set<Store.ProductId>, cat: Store.Catalog, p: Store.ProductId)
    requires p in cat
    ensures var server := Wishlist.Toggle(w, cat, p).value;
            Toggle(w, true, p, Answered(server.liked)).liked == server.wishlist
  {
  }
}

=== FILE: wrappers.dfy ===
/** Failure-compatible wrappers shared by every module of the model. */
module Wrappers {

  /** A value that may be absent: the source's `null`/`undefined`. */
  datatype Option<+T> = None | Some(value: T)

  /** Either a computed value or a typed rejection. */
  datatype Result<+T, +E> = Ok(value: T) | Err(error: E)
}
